=== FILE: README.md ===
# feeds-to-pocket, modelled in Dafny

feeds-to-pocket keeps a list of RSS and Atom feeds. For each feed it
remembers the links it has already processed. On `sync` it downloads every
feed and sends each new entry link to the user's Pocket list. This project
models the core of that program:

- the per-feed reconciliation loop of `process_feed`, which turns a parsed
  feed into candidate links, oldest first, trims each one, and skips those
  already processed. It then pushes the rest to Pocket, or takes them as
  read when there is no Pocket client, and records a link only when that
  step counts as processed;
- `trim`, the two-space indenting writer, and the display of
  `ErrorWithContext` and `PocketSetupError`;
- the credential checks `get_pocket` and `get_authenticated_pocket`, the
  `add` subcommand's add-if-absent logic, and `sync` over all feeds;
- in `src/pocket.rs`:
  - how one HTTP exchange is classified as a body, a protocol error or an
    HTTP error;
  - how `PocketError` displays;
  - how the client's login code and access token change across
    `get_auth_url`, `authorize` and `add`.

Everything is pure functions over immutable datatypes. A few things are
inputs rather than computations:

- downloading and parsing a feed (`App.Download`);
- the Pocket sink, an oracle `push: string -> bool` that says whether a
  push succeeded;
- the HTTP transport (`Pocket.Request -> Pocket.Exchange`);
- JSON decoding of response bodies;
- the display text of the HTTP library's errors.

Modules, one per file:

| file | module | models |
|---|---|---|
| results.dfy | `Results` | `Option` and `Result` |
| text.dfy | `Text` | `char::is_whitespace`, `str::trim` and the program's `trim`, `str::split` |
| indentation.dfy | `Indentation` | `IndentedWrite::write_str` |
| errors.dfy | `Errors` | `ErrorWithContext`, `PocketSetupError` and their display |
| pocket.dfy | `Pocket` | `Pocket::request`'s classification, `PocketError` display, login state |
| reconcile.dfy | `Reconciliation` | candidate links and the `process_feed` loop |
| app.dfy | `App` | configuration, `get_pocket`, `get_authenticated_pocket`, `process_feed`, `add`, `sync` |

Whitespace is the exact Unicode `White_Space` set that Rust's `str::trim`
uses. It is not an abstract predicate, so concrete links such as
`"  http://example.com/x \n"` can be reasoned about.

Where the code and its documentation differ, the model follows the code:

- `Pocket::request` only turns a status into an error through reqwest's
  `error_for_status`, which fails for 4xx and 5xx statuses only. So an
  informational (1xx) or redirection (3xx) status with no error-code header
  gives the body as a success (`Pocket.NonErrorStatusPassesThrough`). It is
  not an HTTP error, even though such a status is not a "success" status.
- `add` without `--unread` does not need a consumer key or access token
  (`src/main.rs:245-249`). Only `--unread` checks them, and it checks them
  before looking at the feed list.

## Model

| member | source | states |
|---|---|---|
| Text.Trim | src/main.rs:361-374 | The trimmed link neither starts nor ends with whitespace. |
| Text.TrimIsPadding | src/main.rs:361-374 | Trimming removes only whitespace: the input is the result with a whitespace run before it and one after it. |
| Text.TrimUnique | src/main.rs:361-374 | Split a string any way into whitespace, a trimmed core and whitespace, and `trim` returns that core. |
| Text.TrimFixpoint | src/main.rs:361-374 | `trim` returns its input unchanged exactly when the input is already trimmed. |
| Text.TrimIdempotent | src/main.rs:361-374 | Trimming twice gives the same result as trimming once. |
| Text.TrimExample | src/main.rs:304-306 | A link with blanks and a line feed around it is stored and compared without them. |
| Text.TrimOwned | src/main.rs:361-374 | Finding the bounds of the trimmed slice gives the trimmed string, and the input itself when nothing is cut off. |
| Text.TrimStartSpec | src/main.rs:364 | The trimming of the leading end drops only whitespace and keeps a suffix that does not start with whitespace. |
| Text.TrimEndSpec | src/main.rs:364 | The trimming of the trailing end drops only whitespace and keeps a prefix that does not end with whitespace. |
| Text.Split | src/main.rs:487 | Splitting on line feeds gives at least one piece, no piece holds a line feed, and joining the pieces gives back the input. |
| Text.SplitJoin | src/main.rs:487 | Splitting undoes joining when no piece holds the separator. |
| Indentation.IndentedWrite | src/main.rs:485-498 | The written text's lines are the input's lines, the first as it was and every later one shifted two columns right. |
| Indentation.IndentedWriteIsLineFeedReplacement | src/main.rs:485-498 | The indenting writer's output equals its input with every line feed followed by two spaces. |
| Indentation.IndentAfterLineFeedsAppend | src/main.rs:485-498 | The line-feed replacement distributes over concatenation. |
| Indentation.IndentedWriteChunking | src/main.rs:485-498 | Writing a text in two pieces through the indenting writer gives the same output as writing it at once, so the split points a formatter chooses do not matter. |
| Indentation.IndentedWriteSingleLine | src/main.rs:485-498 | Text without a line feed passes through unchanged. |
| Indentation.IndentedWriteLines | src/main.rs:485-498 | Lines joined by line feeds come out with every line after the first indented by two spaces. |
| Errors.SetupErrorTextDistinct | src/main.rs:427-436 | The two missing-credential messages differ, so the text says which credential is missing. |
| Errors.Display | src/main.rs:410-414 | Below a single-line context and its colon, the cause's lines follow, each shifted two columns right, whatever the cause's text. |
| Errors.ChainLayout | src/main.rs:410-414 | A chain of single-line contexts around a single-line message displays as one line per level, with level `k` indented by `2k` spaces and every context followed by a colon. |
| Errors.ChainLayoutStep | src/main.rs:410-414 | One more context adds its line above the cause's lines and shifts those two columns right. |
| Pocket.GetHeader | src/pocket.rs:191 | A header is found exactly when one with that name (in any ASCII case) is present, and the value is that of the first such header. |
| Pocket.Interpret | src/pocket.rs:172-214 | A request that could not be sent is an HTTP error without a body. A response with an error-code header is a protocol error carrying the code, the `X-Error` message (or "unknown protocol error") and the body, whatever the status. Without that header, a 4xx or 5xx status is an HTTP error that keeps the body if it was read. Otherwise the result is the body, or an I/O error carrying the read failure when the body could not be read. |
| Pocket.ProtoIgnoresStatus | src/pocket.rs:191-202 | With an error-code header, changing the status changes nothing. |
| Pocket.NonErrorStatusPassesThrough | src/pocket.rs:204-212 | Without an error-code header, any status outside 4xx and 5xx yields the body. |
| Pocket.GetAuthUrl | src/pocket.rs:216-245 | It succeeds exactly when the exchange and the decoding both succeed. Then the client records the code the service returned, and the authorization URL carries that code. A failed exchange passes its error through and a failed decoding is a JSON error; either way the client is unchanged. |
| Pocket.Authorize | src/pocket.rs:247-261 | Needs the login code. It succeeds exactly when the exchange and the decoding both succeed. Then the client stores the access token the service returned, changes nothing else, and the user name returned is the service's. A failed exchange passes its error through and a failed decoding is a JSON error; either way the client is unchanged. |
| Pocket.Add | src/pocket.rs:263-281 | Adding succeeds exactly when the exchange succeeds, and otherwise reports the exchange's error. |
| Pocket.LoginEnablesAdd | src/pocket.rs:242-272 | After a successful `get_auth_url` and `authorize`, the client holds an access token, so `add` does not panic. Every add request then carries the consumer key and the token the service returned for the code from the first reply. |
| Pocket.ErrorText | src/pocket.rs:87-110 | An HTTP or protocol error's text reads back: its first line is the library's text or `msg (code c)`, and what follows the line feed is exactly the body, when there is one. |
| Reconciliation.ReverseFlatten | src/main.rs:292-301 | A link is a candidate exactly when some item carries it. |
| Reconciliation.ReverseFlattenIsFlattenOfReverse | src/main.rs:294 | The candidates are the flattening of the reversed item list. |
| Reconciliation.Candidates | src/main.rs:292-301 | A link is a candidate exactly when some RSS item has it as its link, or some Atom entry has it among its links. |
| Reconciliation.CandidatesNewestLast | src/main.rs:292-301 | For RSS items and Atom entries alike, the items later in the document (older) come out before the items earlier in it (newer). |
| Reconciliation.AtomEntryLinksInOrder | src/main.rs:297-300 | An Atom entry contributes all of its links, in their own order. |
| Reconciliation.RssLinklessItemIgnored | src/main.rs:293-296 | An RSS item without a link contributes nothing. |
| Reconciliation.SeenBefore | src/main.rs:309 | The backward search finds a link exactly when the history holds it. |
| Reconciliation.Reconcile | src/main.rs:303-338 | The processed entries and the push log only grow at their ends. |
| Reconciliation.VisitSkipsSeen | src/main.rs:306-309 | A link whose trimmed form is already recorded causes no push and no change. |
| Reconciliation.ReconcileSkipsSeen | src/main.rs:303-309 | When every trimmed candidate is already recorded, the loop changes nothing and pushes nothing. |
| Reconciliation.VisitMembership | src/main.rs:306-336 | After one step, a link is recorded exactly when it was before, or it is the trimmed link and that step counted as processed. |
| Reconciliation.ReconcileMembership | src/main.rs:303-338 | After the loop, an entry is recorded exactly when it was before, or it is a trimmed candidate that was taken as read (no sink) or pushed successfully. |
| Reconciliation.ReconcileGrowth | src/main.rs:332-336 | Every appended entry is a trimmed candidate that was not recorded before and counted as processed. |
| Reconciliation.VisitNoDuplicates | src/main.rs:309-335 | One step keeps the history free of duplicates. |
| Reconciliation.ReconcileNoDuplicates | src/main.rs:309-335 | A duplicate-free history stays duplicate-free, even when a link repeats within one feed. |
| Reconciliation.ReconcileKeepsTrimmed | src/main.rs:306-335 | If every old entry is trimmed, every entry is trimmed afterwards. |
| Reconciliation.ReconcileWithoutSinkPushesNothing | src/main.rs:325-330 | Without a sink no push is attempted. |
| Reconciliation.ReconcileAttempt | src/main.rs:309-324 | Every push reports the sink's answer and concerns a trimmed candidate that was not recorded before: a processed entry is never pushed again. |
| Reconciliation.ReconcileRecordsSuccesses | src/main.rs:311-336 | With a sink, the appended entries are exactly the links of the successful pushes, in push order. A failed push is not recorded. |
| Reconciliation.ReconcilePushesEveryNew | src/main.rs:303-338 | With a sink, every trimmed candidate not recorded before is pushed: a failed push does not stop the loop. |
| Reconciliation.NoSinkIsAcceptingSink | src/main.rs:310-330 | Taking entries as read records exactly what a sink that accepts every push records. |
| Reconciliation.NothingNewNothingRecorded | src/main.rs:303-338 | When no trimmed candidate is both new and accepted, nothing is recorded. |
| Reconciliation.ReconcileIdempotent | src/main.rs:303-338 | Against a sink that answers every link as it did the first time, running the loop again over the same feed records nothing more. The second run then pushes nothing without a sink, and with a sink every push it makes fails. |
| Reconciliation.Kept | src/main.rs:332-336 | The kept links are exactly the links whose push succeeds. |
| Reconciliation.Pushes | src/main.rs:311-324 | There is one push per link, in order, each with the sink's answer. |
| Reconciliation.VisitFresh | src/main.rs:306-336 | A link whose trimmed form is new is pushed, and recorded only if the push succeeds. |
| Reconciliation.ReconcileFresh | src/main.rs:303-338 | When the trimmed candidates are distinct and new, the loop pushes each in order and appends exactly the successful ones, in order. A failed push is retried on the next run because it stays unrecorded. |
| Reconciliation.ProcessEntries | src/main.rs:303-338 | The loop written with in-place updates, using the allocation-avoiding `trim` and the backward search, computes the same history and push log as the fold. |
| App.GetPocket | src/main.rs:267-272 | A client is built exactly when there is a consumer key, with the configuration's access token and no login code. Otherwise the error is `MissingConsumerKey`. |
| App.GetAuthenticatedPocket | src/main.rs:274-281 | A missing consumer key is reported first, then a missing access token. It succeeds exactly when both are present. |
| App.AuthenticatedSessionCanAdd | src/main.rs:274-281 | A client from `get_authenticated_pocket` holds an access token, and every add request it builds carries the configuration's consumer key and access token. |
| App.ProcessFeed | src/main.rs:283-341 | A download or parse failure is reported with a context naming the feed, and the feed is left alone. Otherwise the feed keeps its URL and its history only grows. An entry is then recorded exactly when it was before or it is a trimmed candidate the sink accepts. With a sink the appended entries are the successful pushes in order, every push is of a trimmed candidate the feed had not processed and reports the sink's answer, and every such new candidate is pushed, so a failed push does not stop the loop. When the trimmed candidates are distinct and all new, the pushes are exactly one per candidate, oldest first, and the appended entries are the accepted ones in that order. A history without duplicates stays without duplicates, even when a link repeats within the feed. Without a sink nothing is pushed. |
| App.HasFeed | src/main.rs:252 | Holds exactly when some configured feed has that URL. |
| App.AddFeed | src/main.rs:243-265 | With `--unread`, missing credentials fail with context "unable to add feed". A URL already present leaves the configuration as it is. Otherwise exactly one feed is appended after the others: the new feed with that URL as `process_feed` leaves it, with its pushes. A processing failure is the command's failure. |
| App.AddFeedKeepsUrlsUnique | src/main.rs:252-260 | Adding keeps feed URLs unique. |
| App.AddFeedAdoptsEntries | src/main.rs:243-265 | Adding without `--unread` pushes nothing. The new feed's history is exactly the trimmed candidates, without duplicates. |
| App.SyncFeeds | src/main.rs:234-238 | Every feed keeps its URL. A feed that fails to download or parse is left as it was, and every other feed becomes what `process_feed` makes of it. The push log is the feeds' `process_feed` pushes, feed after feed. |
| App.SyncFeedsPushes | src/main.rs:234-238 | Every push made while syncing the feeds is a push of a new trimmed candidate of one of them. |
| App.Sync | src/main.rs:231-241 | Fails exactly when a credential is missing, with context "unable to sync". Otherwise every downloaded feed becomes what `process_feed` makes of it, every other feed is left as it was, and the pushes are the downloaded feeds' pushes, feed after feed. |
| App.SyncPushesEveryNew | src/main.rs:234-238 | With both credentials, a sync pushes every trimmed candidate of every downloaded feed that the feed had not processed. |
| App.SyncNeverRepushes | src/main.rs:231-241 | Every push a sync makes is of a trimmed candidate of some downloaded feed that this feed had not processed: a sync never pushes a link its feed had already processed. |

## Left out

- Command-line parsing and dispatch with clap (`src/main.rs:28-117`): user-interface plumbing. The subcommand logic itself is modelled as `App.AddFeed` and `App.Sync`.
- `set-consumer-key`: it only assigns one configuration field.
- Loading and saving the YAML configuration, including the copy, rename and rollback sequence and the multi-error `Errors` display it uses (`src/main.rs:128-195`, `448-462`): these are filesystem side effects.
- `fetch` over hyper and the syndication RSS/Atom parsing (`src/main.rs:284-301`, `343-359`). A download or parse outcome is an input (`App.Download`).
- The "downloading ...", "pushing ..." and push-error lines printed to standard output, the "This feed is already in your configuration!" line of `add` (`src/main.rs:253`), `login`'s note that an existing access token will be overwritten (`src/main.rs:205`), and the errors printed to standard error during `sync`: output only. The line printed for a failed push uses the indenting writer, which is modelled.
- The interactive standard-input retry loop of `login` (`src/main.rs:201-229`). `Pocket.GetAuthUrl` and `Pocket.Authorize` model the two calls it makes.
- The reqwest transport, JSON encoding and decoding with serde, and building the authorization URL's query string (`src/pocket.rs:172-189`, `238-241`, `284-292`): foreign libraries. The transport and the decoders are parameters. The URL is kept as its page and two parameters.
- The display text of reqwest, I/O and serde_json errors: foreign code. It is a parameter (`httpText`) or carried as text.
- `main.rs` calls `pocket.push(&url)` and a two-argument `Pocket::new`, but `src/pocket.rs` defines neither: it has a three-argument `new` and `add(url, title, tags, tweet_id)`. The sink in the loop is therefore an oracle, and `Pocket.Add` models `add` on its own terms.
- Pocket.Interpret: `HeaderValue::to_str().expect(...)` panics on a header value that is not visible ASCII. This is a precondition (`Pocket.Readable`) rather than a modelled panic.
- Pocket.Authorize and Pocket.AddItemRequest: the `unwrap` of a missing login code or access token panics in the source, and is a precondition here.
- Reconciliation.Visit has no contract of its own. Its behaviour is stated by `VisitSkipsSeen`, `VisitMembership` and `VisitFresh`.
- Reconciliation.ReconcileIdempotent and the sink in general: the push oracle answers a link the same way every time, within one run (a link repeated within one feed after a failed push) and across runs. The real Pocket service may accept on a later try a push it refused before, which is why the loop leaves a failed link unrecorded; the model does not promise anything about such a later, different answer.

=== FILE: app.dfy ===
/** The configuration and the operations of src/main.rs that act on it:
    the credential checks that build a Pocket client, `process_feed`, the
    feed-adding logic of the `add` subcommand, and `sync`. Downloading and
    parsing a feed are inputs (`Download`), and so is the sink's answer to
    each push (`push`). */
module App {
  import opened Results
  import opened Text
  import opened Errors
  import Pocket
  import opened Reconciliation

  /** One tracked feed: its URL and the links already processed. */
  datatype Feed = Feed(url: string, processedEntries: seq<string>)

  datatype Configuration = Configuration(
    consumerKey: Option<string>,
    accessToken: Option<string>,
    feeds: seq<Feed>)

  /** `get_pocket`: a client needs the consumer key; the access token is
      passed along when there is one. */
  function GetPocket(config: Configuration): (r: Result<Pocket.Session, SetupError>)
    ensures r.Ok? <==> config.consumerKey.Some?
    ensures r.Err? ==> r.error == MissingConsumerKey
    ensures r.Ok? ==> r.value.consumerKey == config.consumerKey.value
                      && r.value.accessToken == config.accessToken
                      && r.value.code.None?
  {
    match config.consumerKey
    case Some(key) => Ok(Pocket.NewSession(key, config.accessToken))
    case None => Err(MissingConsumerKey)
  }

  /** `get_authenticated_pocket`: the consumer key is checked first, then the
      access token. */
  function GetAuthenticatedPocket(config: Configuration): (r: Result<Pocket.Session, SetupError>)
    ensures config.consumerKey.None? ==> r == Err(MissingConsumerKey)
    ensures config.consumerKey.Some? && config.accessToken.None? ==> r == Err(MissingAccessToken)
    ensures r.Ok? <==> config.consumerKey.Some? && config.accessToken.Some?
    ensures r.Ok? ==> r.value.consumerKey == config.consumerKey.value
                      && r.value.accessToken == config.accessToken
  {
    match GetPocket(config)
    case Err(e) => Err(e)
    case Ok(session) =>
      match config.accessToken
      case Some(_) => Ok(session)
      case None => Err(MissingAccessToken)
  }

  /** A client obtained through `get_authenticated_pocket` holds an access
      token, so adding an item through it does not panic, and every add
      request it sends carries the configuration's two credentials. */
  lemma AuthenticatedSessionCanAdd(config: Configuration, url: string, title: Option<string>,
                                   tags: Option<string>, tweetId: Option<string>)
    requires GetAuthenticatedPocket(config).Ok?
    ensures var session := GetAuthenticatedPocket(config).value;
            && session.accessToken.Some?
            && Pocket.AddItemRequest(session, url, title, tags, tweetId)
               == Pocket.AddRequest(config.consumerKey.value, config.accessToken.value, url, title, tags, tweetId)
  {
  }

  /** What downloading and parsing one feed gave: the parsed feed, or the
      error of the download or of the parse. */
  datatype Download =
    | Downloaded(parsed: ParsedFeed)
    | DownloadFailed(cause: Error)
    | ParseFailed(cause: Error)

  /** A push made while processing `feed` after download `d`: it concerns a
      trimmed candidate of the downloaded feed that the feed had not
      processed, and it reports the sink's answer. */
  predicate PushedFor(feed: Feed, d: Download, push: string -> bool, a: Attempt) {
    && d.Downloaded?
    && a.url in Trimmed(Candidates(d.parsed))
    && a.url !in feed.processedEntries
    && a.ok == push(a.url)
  }

  /** `process_feed`: on a download or parse failure the error says which
      feed failed and the feed is not touched; otherwise the candidate
      links are reconciled against the feed's processed entries. The result
      holds the updated feed and the pushes made: an entry is recorded
      exactly when it was before or it is a trimmed candidate the sink
      accepts, the entries appended are the successful pushes in order, and
      every push is of a new trimmed candidate. With a sink, every new
      trimmed candidate is pushed: a failed push does not stop the loop.
      The history stays free of duplicates, and distinct new candidates
      are pushed oldest first. */
  function ProcessFeed(feed: Feed, download: Download, sink: Sink): (r: Result<(Feed, seq<Attempt>), Error>)
    ensures r.Ok? <==> download.Downloaded?
    ensures download.DownloadFailed? ==>
              r == Err(WithContext("failed to download feed at " + feed.url, download.cause))
    ensures download.ParseFailed? ==>
              r == Err(WithContext("failed to parse feed at " + feed.url + " as either RSS or Atom", download.cause))
    ensures r.Ok? ==> r.value.0.url == feed.url && feed.processedEntries <= r.value.0.processedEntries
    ensures r.Ok? && sink.None? ==> r.value.1 == []
    ensures download.Downloaded? ==>
              forall u :: u in r.value.0.processedEntries
                  <==> u in feed.processedEntries || (u in Trimmed(Candidates(download.parsed)) && Accepts(sink, u))
    ensures download.Downloaded? && sink.Some? ==>
              r.value.0.processedEntries == feed.processedEntries + Succeeded(r.value.1)
    ensures r.Ok? && sink.Some? ==> forall k :: 0 <= k < |r.value.1| ==> PushedFor(feed, download, sink.value, r.value.1[k])
    ensures download.Downloaded? && sink.Some? ==>
              forall u :: u in Trimmed(Candidates(download.parsed)) && u !in feed.processedEntries ==>
                exists k :: 0 <= k < |r.value.1| && r.value.1[k].url == u
    ensures download.Downloaded? && NoDuplicates(feed.processedEntries) ==> NoDuplicates(r.value.0.processedEntries)
    ensures download.Downloaded? && sink.Some?
            && NoDuplicates(Trimmed(Candidates(download.parsed)))
            && (forall u :: u in Trimmed(Candidates(download.parsed)) ==> u !in feed.processedEntries) ==>
              && r.value.1 == Pushes(Trimmed(Candidates(download.parsed)), sink.value)
              && r.value.0.processedEntries == feed.processedEntries + Kept(Trimmed(Candidates(download.parsed)), sink.value)
  {
    match download
    case DownloadFailed(cause) => Err(WithContext("failed to download feed at " + feed.url, cause))
    case ParseFailed(cause) =>
      Err(WithContext("failed to parse feed at " + feed.url + " as either RSS or Atom", cause))
    case Downloaded(parsed) =>
      var q := Reconcile(Progress(feed.processedEntries, []), Candidates(parsed), sink);
      ReconcileWithoutSinkPushesNothing(Progress(feed.processedEntries, []), Candidates(parsed));
      ReconcileFromHistory(feed.processedEntries, Candidates(parsed), sink);
      ReconcileFromHistoryOrder(feed.processedEntries, Candidates(parsed), sink);
      Ok((feed.(processedEntries := q.processed), q.attempts))
  }

  /** The loop started from a feed's history and an empty push log. */
  lemma ReconcileFromHistory(history: seq<string>, links: seq<string>, sink: Sink)
    ensures var q := Reconcile(Progress(history, []), links, sink);
            && (forall u :: u in q.processed <==> u in history || (u in Trimmed(links) && Accepts(sink, u)))
            && (sink.Some? ==> q.processed == history + Succeeded(q.attempts))
            && (sink.Some? ==> forall k :: 0 <= k < |q.attempts| ==>
                  && q.attempts[k].url in Trimmed(links)
                  && q.attempts[k].url !in history
                  && q.attempts[k].ok == sink.value(q.attempts[k].url))
            && (sink.Some? ==> forall u :: u in Trimmed(links) && u !in history ==>
                  exists k :: 0 <= k < |q.attempts| && q.attempts[k].url == u)
  {
    var p := Progress(history, []);
    var q := Reconcile(p, links, sink);
    assert forall u :: u in q.processed <==> u in history || (u in Trimmed(links) && Accepts(sink, u)) by {
      forall u ensures u in q.processed <==> u in history || (u in Trimmed(links) && Accepts(sink, u)) {
        ReconcileMembership(p, links, sink, u);
      }
    }
    assert sink.Some? ==> q.processed == history + Succeeded(q.attempts) by {
      if sink.Some? {
        ReconcileRecordsSuccesses(p, links, sink.value);
        assert q.attempts[|p.attempts|..] == q.attempts;
      }
    }
    assert sink.Some? ==> forall k :: 0 <= k < |q.attempts| ==>
             && q.attempts[k].url in Trimmed(links)
             && q.attempts[k].url !in history
             && q.attempts[k].ok == sink.value(q.attempts[k].url)
    by {
      forall k | 0 <= k < |q.attempts| && sink.Some?
        ensures && q.attempts[k].url in Trimmed(links)
                && q.attempts[k].url !in history
                && q.attempts[k].ok == sink.value(q.attempts[k].url)
      {
        ReconcileAttempt(p, links, sink, k);
      }
    }
    assert sink.Some? ==> forall u :: u in Trimmed(links) && u !in history ==>
             exists k :: 0 <= k < |q.attempts| && q.attempts[k].url == u
    by {
      forall u | u in Trimmed(links) && u !in history && sink.Some?
        ensures exists k :: 0 <= k < |q.attempts| && q.attempts[k].url == u
      {
        ReconcilePushesEveryNew(p, links, sink.value, u);
      }
    }
  }

  /** The loop started from a feed's history keeps it free of duplicates,
      and over distinct new candidates it pushes them oldest first. */
  lemma ReconcileFromHistoryOrder(history: seq<string>, links: seq<string>, sink: Sink)
    ensures NoDuplicates(history) ==> NoDuplicates(Reconcile(Progress(history, []), links, sink).processed)
    ensures sink.Some? && NoDuplicates(Trimmed(links)) && (forall u :: u in Trimmed(links) ==> u !in history) ==>
              Reconcile(Progress(history, []), links, sink)
              == Progress(history + Kept(Trimmed(links), sink.value), Pushes(Trimmed(links), sink.value))
  {
    var p := Progress(history, []);
    if NoDuplicates(history) {
      ReconcileNoDuplicates(p, links, sink);
    }
    if sink.Some? && NoDuplicates(Trimmed(links)) && (forall u :: u in Trimmed(links) ==> u !in history) {
      assert forall i :: 0 <= i < |links| ==> Trim(links[i]) == Trimmed(links)[i];
      ReconcileFresh(p, links, sink.value);
      assert [] + Pushes(Trimmed(links), sink.value) == Pushes(Trimmed(links), sink.value);
    }
  }

  /** No two feeds share a URL. */
  predicate UniqueUrls(feeds: seq<Feed>) {
    forall i, j :: 0 <= i < j < |feeds| ==> feeds[i].url != feeds[j].url
  }

  function HasFeed(feeds: seq<Feed>, url: string): (r: bool)
    ensures r <==> exists i :: 0 <= i < |feeds| && feeds[i].url == url
  {
    if |feeds| == 0 then false
    else
      var r := feeds[0].url == url || HasFeed(feeds[1..], url);
      assert forall i :: 1 <= i < |feeds| ==> feeds[i] == feeds[1..][i - 1];
      r
  }

  /** The `add` subcommand. With `unread` the entries are pushed, which
      needs both credentials (checked first); without it they are taken as
      read. A URL already configured leaves the configuration as it is;
      otherwise a feed with no processed entries is appended and processed
      at once, and its failure fails the whole command. */
  function AddFeed(config: Configuration, url: string, unread: bool, download: Download,
                   push: string -> bool): (r: Result<(Configuration, seq<Attempt>), Error>)
    ensures unread && GetAuthenticatedPocket(config).Err? ==>
              r == Err(WithContext("unable to add feed", Setup(GetAuthenticatedPocket(config).error)))
    ensures (!unread || GetAuthenticatedPocket(config).Ok?) && HasFeed(config.feeds, url) ==>
              r == Ok((config, []))
    ensures (!unread || GetAuthenticatedPocket(config).Ok?) && !HasFeed(config.feeds, url) ==>
              (r.Ok? <==> download.Downloaded?)
    ensures r.Ok? && !HasFeed(config.feeds, url) ==>
              && |r.value.0.feeds| == |config.feeds| + 1
              && r.value.0.feeds[..|config.feeds|] == config.feeds
              && r.value.0.feeds[|config.feeds|].url == url
              && r.value.0.consumerKey == config.consumerKey
              && r.value.0.accessToken == config.accessToken
    ensures (!unread || GetAuthenticatedPocket(config).Ok?) && !HasFeed(config.feeds, url) ==>
              var processed := ProcessFeed(Feed(url, []), download, if unread then Some(push) else None);
              && (processed.Err? ==> r == Err(processed.error))
              && (processed.Ok? ==> r.Ok? && r.value.0.feeds[|config.feeds|] == processed.value.0
                                    && r.value.1 == processed.value.1)
    ensures r.Ok? && !unread ==> r.value.1 == []
  {
    if unread && GetAuthenticatedPocket(config).Err? then
      Err(WithContext("unable to add feed", Setup(GetAuthenticatedPocket(config).error)))
    else if HasFeed(config.feeds, url) then
      Ok((config, []))
    else
      var sink: Sink := if unread then Some(push) else None;
      match ProcessFeed(Feed(url, []), download, sink)
      case Err(e) => Err(e)
      case Ok(out) =>
        var feeds := config.feeds + [out.0];
        assert feeds[..|config.feeds|] == config.feeds;
        Ok((config.(feeds := feeds), out.1))
  }

  /** Adding keeps feed URLs unique. */
  lemma AddFeedKeepsUrlsUnique(config: Configuration, url: string, unread: bool, download: Download,
                               push: string -> bool)
    requires UniqueUrls(config.feeds)
    requires AddFeed(config, url, unread, download, push).Ok?
    ensures UniqueUrls(AddFeed(config, url, unread, download, push).value.0.feeds)
  {
    var feeds := AddFeed(config, url, unread, download, push).value.0.feeds;
    if !HasFeed(config.feeds, url) {
      forall i, j | 0 <= i < j < |feeds| ensures feeds[i].url != feeds[j].url {
        if j == |config.feeds| {
          assert feeds[i] == config.feeds[i];
        } else {
          assert feeds[i] == config.feeds[i] && feeds[j] == config.feeds[j];
        }
      }
    }
  }

  /** Adding a feed without `unread` takes every entry present as read: no
      push is made, and every trimmed candidate link ends up processed,
      once. */
  lemma AddFeedAdoptsEntries(config: Configuration, url: string, parsed: ParsedFeed, push: string -> bool)
    requires !HasFeed(config.feeds, url)
    ensures var r := AddFeed(config, url, false, Downloaded(parsed), push);
            && r.Ok?
            && r.value.1 == []
            && var added := r.value.0.feeds[|config.feeds|];
               && NoDuplicates(added.processedEntries)
               && (forall u :: u in added.processedEntries <==> u in Trimmed(Candidates(parsed)))
  {
    var p := Progress([], []);
    var links := Candidates(parsed);
    ReconcileNoDuplicates(p, links, None);
    forall u ensures u in Reconcile(p, links, None).processed <==> u in Trimmed(links) {
      ReconcileMembership(p, links, None, u);
    }
  }

  /** The pushes processing one feed makes during a sync: none when its
      download or parse fails. */
  function FeedLog(feed: Feed, download: string -> Download, push: string -> bool): seq<Attempt> {
    match ProcessFeed(feed, download(feed.url), Some(push))
    case Ok(out) => out.1
    case Err(_) => []
  }

  function FeedLogs(feeds: seq<Feed>, download: string -> Download, push: string -> bool): (r: seq<seq<Attempt>>)
    ensures |r| == |feeds| && forall i :: 0 <= i < |feeds| ==> r[i] == FeedLog(feeds[i], download, push)
  {
    seq(|feeds|, i requires 0 <= i < |feeds| => FeedLog(feeds[i], download, push))
  }

  /** The logs one after the other. */
  function ConcatLogs(logs: seq<seq<Attempt>>): seq<Attempt> {
    if |logs| == 0 then [] else logs[0] + ConcatLogs(logs[1..])
  }

  lemma {:induction false} ConcatLogsContains(logs: seq<seq<Attempt>>, i: nat, k: nat)
    requires i < |logs| && k < |logs[i]|
    ensures logs[i][k] in ConcatLogs(logs)
    decreases i
  {
    if i > 0 {
      ConcatLogsContains(logs[1..], i - 1, k);
      assert logs[1..][i - 1] == logs[i];
    }
  }

  /** `sync` over the feeds, in order: each feed is processed with the same
      sink, and a feed whose download or parse fails is left as it was
      while the others go on. */
  function SyncFeeds(feeds: seq<Feed>, download: string -> Download, push: string -> bool)
    : (r: (seq<Feed>, seq<Attempt>))
    ensures |r.0| == |feeds|
    ensures forall i :: 0 <= i < |feeds| ==>
              && r.0[i].url == feeds[i].url
              && feeds[i].processedEntries <= r.0[i].processedEntries
              && (!download(feeds[i].url).Downloaded? ==> r.0[i] == feeds[i])
              && (download(feeds[i].url).Downloaded? ==>
                    r.0[i] == ProcessFeed(feeds[i], download(feeds[i].url), Some(push)).value.0)
    ensures r.1 == ConcatLogs(FeedLogs(feeds, download, push))
  {
    if |feeds| == 0 then ([], [])
    else
      var rest := SyncFeeds(feeds[1..], download, push);
      assert FeedLogs(feeds, download, push)[1..] == FeedLogs(feeds[1..], download, push);
      assert forall i :: 1 <= i < |feeds| ==> feeds[i] == feeds[1..][i - 1];
      ([SyncedFeed(feeds[0], download, push)] + rest.0, FeedLog(feeds[0], download, push) + rest.1)
  }

  /** One feed after a sync: what `process_feed` makes of it, or the feed
      as it was when its download or parse fails. */
  function SyncedFeed(feed: Feed, download: string -> Download, push: string -> bool): (f: Feed)
    ensures f.url == feed.url && feed.processedEntries <= f.processedEntries
    ensures !download(feed.url).Downloaded? ==> f == feed
    ensures download(feed.url).Downloaded? ==> f == ProcessFeed(feed, download(feed.url), Some(push)).value.0
  {
    match ProcessFeed(feed, download(feed.url), Some(push))
    case Err(_) => feed
    case Ok(out) => out.0
  }

  /** Every push of a sync over the feeds is a push made for one of them. */
  lemma SyncFeedsPushes(feeds: seq<Feed>, download: string -> Download, push: string -> bool, k: nat)
    requires k < |SyncFeeds(feeds, download, push).1|
    ensures exists i :: 0 <= i < |feeds|
                        && PushedFor(feeds[i], download(feeds[i].url), push, SyncFeeds(feeds, download, push).1[k])
  {
    var logs := FeedLogs(feeds, download, push);
    var a := SyncFeeds(feeds, download, push).1[k];
    ConcatLogsIndex(logs, k);
    var i, j :| 0 <= i < |logs| && 0 <= j < |logs[i]| && a == logs[i][j];
    assert logs[i] == FeedLog(feeds[i], download, push);
    assert PushedFor(feeds[i], download(feeds[i].url), push, a);
  }

  lemma {:induction false} ConcatLogsIndex(logs: seq<seq<Attempt>>, k: nat)
    requires k < |ConcatLogs(logs)|
    ensures exists i, j :: 0 <= i < |logs| && 0 <= j < |logs[i]| && ConcatLogs(logs)[k] == logs[i][j]
    decreases |logs|
  {
    if k < |logs[0]| {
      assert ConcatLogs(logs)[k] == logs[0][k];
    } else {
      ConcatLogsIndex(logs[1..], k - |logs[0]|);
      var i, j :| 0 <= i < |logs[1..]| && 0 <= j < |logs[1..][i]|
                  && ConcatLogs(logs[1..])[k - |logs[0]|] == logs[1..][i][j];
      assert logs[1..][i] == logs[i + 1];
      assert ConcatLogs(logs)[k] == logs[i + 1][j];
    }
  }

  /** `sync`: needs both credentials; then every feed is processed: a feed
      downloaded and parsed becomes what `process_feed` makes of it, and
      any other feed is left as it was. The pushes are those of the
      downloaded feeds, feed after feed. */
  function Sync(config: Configuration, download: string -> Download, push: string -> bool)
    : (r: Result<(Configuration, seq<Attempt>), Error>)
    ensures r.Err? <==> GetAuthenticatedPocket(config).Err?
    ensures r.Err? ==> r.error == WithContext("unable to sync", Setup(GetAuthenticatedPocket(config).error))
    ensures r.Ok? ==> r.value.0.consumerKey == config.consumerKey
                      && r.value.0.accessToken == config.accessToken
                      && |r.value.0.feeds| == |config.feeds|
    ensures r.Ok? ==> forall i :: 0 <= i < |config.feeds| ==>
              && r.value.0.feeds[i].url == config.feeds[i].url
              && config.feeds[i].processedEntries <= r.value.0.feeds[i].processedEntries
              && (!download(config.feeds[i].url).Downloaded? ==> r.value.0.feeds[i] == config.feeds[i])
              && (download(config.feeds[i].url).Downloaded? ==>
                    r.value.0.feeds[i] == ProcessFeed(config.feeds[i], download(config.feeds[i].url), Some(push)).value.0)
    ensures r.Ok? ==> r.value.1 == ConcatLogs(FeedLogs(config.feeds, download, push))
  {
    match GetAuthenticatedPocket(config)
    case Err(e) => Err(WithContext("unable to sync", Setup(e)))
    case Ok(_) =>
      var out := SyncFeeds(config.feeds, download, push);
      Ok((config.(feeds := out.0), out.1))
  }

  /** A sync never pushes a link that its feed had already processed: every
      push concerns a trimmed candidate of a downloaded feed that the feed
      had not processed, and reports the sink's answer. */
  lemma SyncNeverRepushes(config: Configuration, download: string -> Download, push: string -> bool, k: nat)
    requires config.consumerKey.Some? && config.accessToken.Some?
    requires k < |ConcatLogs(FeedLogs(config.feeds, download, push))|
    ensures Sync(config, download, push).Ok? && k < |Sync(config, download, push).value.1|
    ensures var a := Sync(config, download, push).value.1[k];
            exists i :: 0 <= i < |config.feeds|
                        && PushedFor(config.feeds[i], download(config.feeds[i].url), push, a)
  {
    assert Sync(config, download, push).value.1 == SyncFeeds(config.feeds, download, push).1;
    SyncFeedsPushes(config.feeds, download, push, k);
  }

  /** Where a new trimmed candidate sits in its feed's push log. */
  lemma FeedLogHas(feed: Feed, download: string -> Download, push: string -> bool, u: string) returns (k: nat)
    requires download(feed.url).Downloaded?
    requires u in Trimmed(Candidates(download(feed.url).parsed)) && u !in feed.processedEntries
    ensures k < |FeedLog(feed, download, push)| && FeedLog(feed, download, push)[k].url == u
  {
    var log := FeedLog(feed, download, push);
    k :| 0 <= k < |log| && log[k].url == u;
  }

  /** A sync pushes every new trimmed candidate of every downloaded feed. */
  lemma SyncPushesEveryNew(config: Configuration, download: string -> Download, push: string -> bool,
                           i: nat, u: string)
    requires config.consumerKey.Some? && config.accessToken.Some?
    requires i < |config.feeds| && download(config.feeds[i].url).Downloaded?
    requires u in Trimmed(Candidates(download(config.feeds[i].url).parsed))
    requires u !in config.feeds[i].processedEntries
    ensures Sync(config, download, push).Ok?
    ensures exists k :: 0 <= k < |Sync(config, download, push).value.1| && Sync(config, download, push).value.1[k].url == u
  {
    var logs := FeedLogs(config.feeds, download, push);
    var log := logs[i];
    var k0 := FeedLogHas(config.feeds[i], download, push, u);
    ConcatLogsContains(logs, i, k0);
    var all := Sync(config, download, push).value.1;
    assert log[k0] in all;
    var k :| 0 <= k < |all| && all[k] == log[k0];
  }
}

=== FILE: errors.dfy ===
/** The error values of src/main.rs and how they display: a message chain
    in which every `ErrorWithContext` puts its context line above its
    cause, and the cause's text is written through the indenting writer. */
module Errors {
  import opened Text
  import opened Indentation

  /** `PocketSetupError`: a credential the operation needs is not in the
      configuration. */
  datatype SetupError = MissingConsumerKey | MissingAccessToken

  datatype Error =
    | Setup(setup: SetupError)
      /** An error of a library outside the model, by its display text. */
    | Foreign(text: string)
      /** `ErrorWithContext`: what was being done, and why it failed. */
    | WithContext(context: string, cause: Error)

  const MissingConsumerKeyText: string :=
    "The consumer key is not set in the configuration file. Run `feeds-to-pocket help set-consumer-key` for help and instructions."
  const MissingAccessTokenText: string :=
    "The access token is not set in the configuration file. Run `feeds-to-pocket help login` for help and instructions."

  function SetupErrorText(e: SetupError): (r: string)
    ensures |r| > 0
  {
    match e
    case MissingConsumerKey => MissingConsumerKeyText
    case MissingAccessToken => MissingAccessTokenText
  }

  /** The two credential errors display differently, so the message tells
      which credential is missing. */
  lemma SetupErrorTextDistinct(a: SetupError, b: SetupError)
    ensures a != b ==> SetupErrorText(a) != SetupErrorText(b)
  {
    assert |MissingConsumerKeyText| != |MissingAccessTokenText|;
  }

  /** The `Display` output of an error: a context, a colon, a line feed and
      two spaces, then the cause written through `IndentedWrite`. */
  function Display(e: Error): (r: string)
    ensures e.WithContext? && '\n' !in e.context ==>
              Split(r, '\n') == [e.context + ":"] + Shifted(Split(Display(e.cause), '\n'))
  {
    match e
    case Setup(s) => SetupErrorText(s)
    case Foreign(t) => t
    case WithContext(c, cause) =>
      var text := c + ":\n  " + IndentedWrite(Display(cause));
      if '\n' in c then text else ContextLines(c, Display(cause)); text
  }

  /** A single-line context followed by an indented cause: the context line,
      then every line of the cause two columns further right. */
  lemma ContextLines(c: string, cause: string)
    requires '\n' !in c
    ensures Split(c + ":\n  " + IndentedWrite(cause), '\n') == [c + ":"] + Shifted(Split(cause, '\n'))
  {
    var lines := Split(cause, '\n');
    var pieces := [c + ":"] + Shifted(lines);
    JoinShifted(lines);
    ShiftedSingle(lines);
    assert pieces[1..] == Shifted(lines);
    assert c + ":\n  " + IndentedWrite(cause) == Join(pieces, '\n');
    SplitJoin(pieces, '\n');
  }

  /** The chain `contexts[0]: contexts[1]: ... : leaf`, outermost first. */
  function Nest(contexts: seq<string>, leaf: Error): (e: Error)
    ensures |contexts| > 0 ==> e.WithContext? && e.context == contexts[0]
  {
    if |contexts| == 0 then leaf
    else WithContext(contexts[0], Nest(contexts[1..], leaf))
  }

  /** Line `k` of a displayed chain: `2 * k` spaces, then the `k`-th context
      and a colon, or the leaf's text on the last line. */
  function ChainLine(contexts: seq<string>, leafText: string, k: nat): string
    requires k <= |contexts|
  {
    Spaces(2 * k) + (if k < |contexts| then contexts[k] + ":" else leafText)
  }

  function ChainLines(contexts: seq<string>, leafText: string): (lines: seq<string>)
    ensures |lines| == |contexts| + 1
  {
    seq(|contexts| + 1, k requires 0 <= k <= |contexts| => ChainLine(contexts, leafText, k))
  }

  lemma ChainLinesSingle(contexts: seq<string>, leafText: string)
    requires forall k :: 0 <= k < |contexts| ==> '\n' !in contexts[k]
    requires '\n' !in leafText
    ensures forall k :: 0 <= k < |ChainLines(contexts, leafText)| ==> '\n' !in ChainLines(contexts, leafText)[k]
  {
    var lines := ChainLines(contexts, leafText);
    forall k | 0 <= k < |lines| ensures '\n' !in lines[k] {
      var text := if k < |contexts| then contexts[k] + ":" else leafText;
      assert lines[k] == Spaces(2 * k) + text;
      assert '\n' !in text;
    }
  }

  lemma ChainLinesTail(contexts: seq<string>, leafText: string)
    requires |contexts| > 0
    ensures ChainLines(contexts, leafText)[1..] == Shifted(ChainLines(contexts[1..], leafText))
  {
    var lines := ChainLines(contexts, leafText);
    var inner := ChainLines(contexts[1..], leafText);
    forall k | 0 <= k < |inner| ensures lines[1..][k] == Shifted(inner)[k] {
      assert Spaces(2 * (k + 1)) == "  " + Spaces(2 * k);
    }
  }

  /** A chain whose contexts and innermost message are single lines displays
      as one line per level, level `k` indented by `2 * k` spaces: the
      message chain with nested causes indented two spaces per nesting
      level. */
  lemma {:induction false} ChainLayout(contexts: seq<string>, leaf: Error)
    requires forall k :: 0 <= k < |contexts| ==> '\n' !in contexts[k]
    requires '\n' !in Display(leaf)
    ensures Display(Nest(contexts, leaf)) == Join(ChainLines(contexts, Display(leaf)), '\n')
    decreases |contexts|
  {
    var m := Display(leaf);
    if |contexts| == 0 {
      var lines := ChainLines(contexts, m);
      assert Spaces(0) == [];
      assert lines[0] == ChainLine(contexts, m, 0) == Spaces(0) + m == m;
      assert lines == [m];
    } else {
      ChainLayout(contexts[1..], leaf);
      ChainLayoutStep(contexts, leaf);
    }
  }

  /** One more level of context adds one line above the cause's lines and
      shifts those two columns right. */
  lemma ChainLayoutStep(contexts: seq<string>, leaf: Error)
    requires |contexts| > 0
    requires forall k :: 0 <= k < |contexts| ==> '\n' !in contexts[k]
    requires '\n' !in Display(leaf)
    requires Display(Nest(contexts[1..], leaf)) == Join(ChainLines(contexts[1..], Display(leaf)), '\n')
    ensures Display(Nest(contexts, leaf)) == Join(ChainLines(contexts, Display(leaf)), '\n')
  {
    var m := Display(leaf);
    var inner := ChainLines(contexts[1..], m);
    var c, y, z := contexts[0], inner[0], ContinuationLines(inner[1..]);
    assert Display(Nest(contexts, leaf)) == c + ":\n  " + IndentedWrite(Join(inner, '\n'));
    ChainLinesSingle(contexts[1..], m);
    IndentedWriteLines(inner);
    ChainLinesFront(contexts, m);
    JoinShifted(inner);
    Regroup(c, y, z);
  }

  lemma ChainLinesFront(contexts: seq<string>, leafText: string)
    requires |contexts| > 0
    ensures Join(ChainLines(contexts, leafText), '\n')
         == (contexts[0] + ":") + "\n" + Join(Shifted(ChainLines(contexts[1..], leafText)), '\n')
  {
    var lines := ChainLines(contexts, leafText);
    ChainLinesTail(contexts, leafText);
    assert Spaces(0) == [];
    assert lines[0] == Spaces(0) + (contexts[0] + ":");
  }

  lemma Regroup(c: string, y: string, z: string)
    ensures c + ":\n  " + (y + z) == (c + ":") + "\n" + ("  " + y + z)
  {
  }
}

=== FILE: indentation.dfy ===
/** The two-space indenting writer of src/main.rs (`IndentedWrite`), through
    which a nested error's message is written so that each level of cause
    sits two columns further right. */
module Indentation {
  import opened Text

  /** Output of one `IndentedWrite::write_str(s)` call: the text is split at
      line feeds, the first line is written as is and every further line is
      written after a line feed and two spaces. */
  function IndentedWrite(s: string): (r: string)
    ensures var lines := Split(s, '\n');
            Split(r, '\n') == [lines[0]] + Shifted(lines[1..])
  {
    var lines := Split(s, '\n');
    WrittenLines(lines);
    lines[0] + ContinuationLines(lines[1..])
  }

  /** The lines after the first, each introduced by `"\n  "`. */
  function ContinuationLines(lines: seq<string>): string {
    if |lines| == 0 then ""
    else "\n  " + lines[0] + ContinuationLines(lines[1..])
  }

  /** The lines, each shifted two columns right. */
  function Shifted(lines: seq<string>): (r: seq<string>)
    ensures |r| == |lines|
  {
    seq(|lines|, k requires 0 <= k < |lines| => "  " + lines[k])
  }

  lemma {:induction false} JoinShifted(lines: seq<string>)
    requires |lines| >= 1
    ensures Join(Shifted(lines), '\n') == "  " + lines[0] + ContinuationLines(lines[1..])
    decreases |lines|
  {
    if |lines| > 1 {
      JoinShifted(lines[1..]);
      assert Shifted(lines)[1..] == Shifted(lines[1..]);
    }
  }

  /** Shifting keeps every line free of line feeds. */
  lemma ShiftedSingle(lines: seq<string>)
    requires forall k :: 0 <= k < |lines| ==> '\n' !in lines[k]
    ensures forall k :: 0 <= k < |Shifted(lines)| ==> '\n' !in Shifted(lines)[k]
  {
    forall k | 0 <= k < |lines| ensures '\n' !in Shifted(lines)[k] {
      assert Shifted(lines)[k] == "  " + lines[k];
    }
  }

  /** The first line followed by the continuation lines splits back into
      the first line and the others shifted. */
  lemma WrittenLines(lines: seq<string>)
    requires |lines| >= 1
    requires forall k :: 0 <= k < |lines| ==> '\n' !in lines[k]
    ensures Split(lines[0] + ContinuationLines(lines[1..]), '\n') == [lines[0]] + Shifted(lines[1..])
  {
    var rest := lines[1..];
    var pieces := [lines[0]] + Shifted(rest);
    assert forall k :: 0 <= k < |rest| ==> '\n' !in rest[k] by {
      forall k | 0 <= k < |rest| ensures '\n' !in rest[k] {
        assert rest[k] == lines[k + 1];
      }
    }
    ShiftedSingle(rest);
    if |rest| == 0 {
      assert lines[0] + ContinuationLines(rest) == Join(pieces, '\n');
    } else {
      JoinShifted(rest);
      assert pieces[1..] == Shifted(rest);
      assert lines[0] + ContinuationLines(rest) == Join(pieces, '\n');
    }
    SplitJoin(pieces, '\n');
  }

  /** Reference reading of the writer: every line feed becomes a line feed
      followed by two spaces; every other character is kept. */
  function IndentAfterLineFeeds(s: string): string {
    if |s| == 0 then ""
    else (if s[0] == '\n' then "\n  " else [s[0]]) + IndentAfterLineFeeds(s[1..])
  }

  /** The writer agrees with the reference reading on every input. */
  lemma {:induction false} IndentedWriteIsLineFeedReplacement(s: string)
    ensures IndentedWrite(s) == IndentAfterLineFeeds(s)
    decreases |s|
  {
    if |s| > 0 {
      IndentedWriteIsLineFeedReplacement(s[1..]);
      var rest := Split(s[1..], '\n');
      if s[0] != '\n' {
        var lines := [[s[0]] + rest[0]] + rest[1..];
        assert lines[1..] == rest[1..];
      }
    }
  }

  lemma {:induction false} IndentAfterLineFeedsAppend(a: string, b: string)
    ensures IndentAfterLineFeeds(a + b) == IndentAfterLineFeeds(a) + IndentAfterLineFeeds(b)
    decreases |a|
  {
    if |a| > 0 {
      assert (a + b)[1..] == a[1..] + b;
      IndentAfterLineFeedsAppend(a[1..], b);
    } else {
      assert a + b == b;
    }
  }

  /** A formatter may hand the writer its text in any number of pieces:
      writing `a` and then `b` produces what writing `a + b` at once does. */
  lemma IndentedWriteChunking(a: string, b: string)
    ensures IndentedWrite(a + b) == IndentedWrite(a) + IndentedWrite(b)
  {
    IndentedWriteIsLineFeedReplacement(a);
    IndentedWriteIsLineFeedReplacement(b);
    IndentedWriteIsLineFeedReplacement(a + b);
    IndentAfterLineFeedsAppend(a, b);
  }

  /** Text without a line feed goes through unchanged. */
  lemma {:induction false} IndentedWriteSingleLine(s: string)
    requires '\n' !in s
    ensures IndentedWrite(s) == s
  {
    IndentedWriteIsLineFeedReplacement(s);
    IndentAfterLineFeedsUnchanged(s);
  }

  lemma {:induction false} IndentAfterLineFeedsUnchanged(s: string)
    requires '\n' !in s
    ensures IndentAfterLineFeeds(s) == s
    decreases |s|
  {
    if |s| > 0 {
      assert '\n' !in s[1..] by {
        forall k | 0 <= k < |s[1..]| ensures s[1..][k] != '\n' {
          assert s[1..][k] == s[k + 1];
        }
      }
      IndentAfterLineFeedsUnchanged(s[1..]);
      assert s == [s[0]] + s[1..];
    }
  }

  /** Text made of single lines joined by line feeds is written as its
      first line followed by the others, each after `"\n  "`. */
  lemma IndentedWriteLines(lines: seq<string>)
    requires |lines| >= 1
    requires forall k :: 0 <= k < |lines| ==> '\n' !in lines[k]
    ensures IndentedWrite(Join(lines, '\n')) == lines[0] + ContinuationLines(lines[1..])
  {
    SplitJoin(lines, '\n');
  }
}

=== FILE: pocket.dfy ===
/** The decision logic of the Pocket client in src/pocket.rs: how one HTTP
    exchange with the service is classified, how the client's credentials
    evolve across the login calls, and how its errors display. The HTTP
    transport and the JSON decoding are parameters: `transport` answers a
    request with an exchange and `decode...` reads a response body. */
module Pocket {
  import opened Results

  /** A failure of the HTTP library: the request could not be sent, or the
      status is an error status (`error_for_status`). */
  datatype HttpError = SendFailed(text: string) | StatusFailed(status: nat)

  /** `PocketError`; foreign errors are carried by their display text. */
  datatype PocketError =
    | Http(error: HttpError, body: Option<string>)
    | Io(text: string)
    | SerdeJson(text: string)
    | Proto(code: string, message: string, body: Option<string>)

  const ErrorHeader: string := "X-Error"
  const ErrorCodeHeader: string := "X-Error-Code"
  const UnknownProtocolError: string := "unknown protocol error"

  datatype Header = Header(name: string, value: string)

  /** A response that arrived: its status, its headers in order, and the
      outcome of reading its body (the text, or the read error's text). */
  datatype Response = Response(status: nat, headers: seq<Header>, body: Result<string, string>)

  datatype Exchange = NotSent(text: string) | Received(response: Response)

  /** Status classes of the HTTP library. */
  predicate IsSuccess(status: nat) { 200 <= status <= 299 }
  predicate IsClientError(status: nat) { 400 <= status <= 499 }
  predicate IsServerError(status: nat) { 500 <= status <= 599 }

  function LowerAscii(c: char): char {
    if 'A' <= c <= 'Z' then (c as int + 32) as char else c
  }

  /** Header names compare without regard to ASCII case. */
  predicate SameHeaderName(a: string, b: string) {
    |a| == |b| && forall k :: 0 <= k < |a| ==> LowerAscii(a[k]) == LowerAscii(b[k])
  }

  /** `HeaderMap::get`: the value of the first header with that name. */
  function GetHeader(headers: seq<Header>, name: string): (r: Option<string>)
    ensures r.Some? <==> exists k :: 0 <= k < |headers| && SameHeaderName(headers[k].name, name)
    ensures r.Some? ==> exists k :: 0 <= k < |headers| && SameHeaderName(headers[k].name, name)
                                   && headers[k].value == r.value
                                   && forall j :: 0 <= j < k ==> !SameHeaderName(headers[j].name, name)
  {
    if |headers| == 0 then None
    else if SameHeaderName(headers[0].name, name) then Some(headers[0].value)
    else
      var r := GetHeader(headers[1..], name);
      assert forall k :: 1 <= k < |headers| ==> headers[k] == headers[1..][k - 1];
      r
  }

  /** `HeaderValue::to_str` succeeds: visible ASCII and tabs only. */
  predicate IsVisibleAscii(s: string) {
    forall k :: 0 <= k < |s| ==> s[k] == '\t' || ' ' <= s[k] <= '~'
  }

  /** The headers the client reads can be turned into text; the client
      panics otherwise. The message header is read only when an error
      code is present. */
  predicate ErrorHeadersReadable(r: Response) {
    match GetHeader(r.headers, ErrorCodeHeader)
    case None => true
    case Some(code) =>
      IsVisibleAscii(code)
      && (GetHeader(r.headers, ErrorHeader).Some? ==> IsVisibleAscii(GetHeader(r.headers, ErrorHeader).value))
  }

  predicate Readable(x: Exchange) {
    x.Received? ==> ErrorHeadersReadable(x.response)
  }

  /** How `Pocket::request` turns one exchange into its result: an error
      code header means a protocol error whatever the status; otherwise an
      error status means an HTTP error that keeps the body; otherwise the
      result is the body as read. */
  function Interpret(x: Exchange): (r: Result<string, PocketError>)
    requires Readable(x)
    ensures x.NotSent? ==> r == Err(Http(SendFailed(x.text), None))
    ensures r.Err? && r.error.Proto?
        <==> x.Received? && GetHeader(x.response.headers, ErrorCodeHeader).Some?
    ensures r.Err? && r.error.Proto? ==>
              && r.error.code == GetHeader(x.response.headers, ErrorCodeHeader).value
              && r.error.message == GetHeader(x.response.headers, ErrorHeader).GetOr(UnknownProtocolError)
    ensures x.Received? && GetHeader(x.response.headers, ErrorCodeHeader).None?
              && (IsClientError(x.response.status) || IsServerError(x.response.status))
            ==> r == Err(Http(StatusFailed(x.response.status), x.response.body.ToOption()))
    ensures r.Ok? <==>
              && x.Received?
              && GetHeader(x.response.headers, ErrorCodeHeader).None?
              && !IsClientError(x.response.status) && !IsServerError(x.response.status)
              && x.response.body.Ok?
    ensures r.Ok? ==> r.value == x.response.body.value
    ensures x.Received? && GetHeader(x.response.headers, ErrorCodeHeader).None?
              && !IsClientError(x.response.status) && !IsServerError(x.response.status)
              && x.response.body.Err?
            ==> r == Err(Io(x.response.body.error))
    ensures x.Received? && r.Err? && (r.error.Http? || r.error.Proto?) ==> r.error.body == x.response.body.ToOption()
    ensures x.Received? && r.Err? ==> r.error.Http? || r.error.Proto? || r.error.Io?
  {
    match x
    case NotSent(t) => Err(Http(SendFailed(t), None))
    case Received(resp) =>
      match GetHeader(resp.headers, ErrorCodeHeader)
      case Some(code) =>
        Err(Proto(code, GetHeader(resp.headers, ErrorHeader).GetOr(UnknownProtocolError), resp.body.ToOption()))
      case None =>
        if !IsSuccess(resp.status) && (IsClientError(resp.status) || IsServerError(resp.status)) then
          Err(Http(StatusFailed(resp.status), resp.body.ToOption()))
        else
          match resp.body
          case Ok(b) => Ok(b)
          case Err(t) => Err(Io(t))
  }

  /** A present error code decides the outcome on its own: the status does
      not matter. */
  lemma ProtoIgnoresStatus(resp: Response, otherStatus: nat)
    requires ErrorHeadersReadable(resp)
    requires GetHeader(resp.headers, ErrorCodeHeader).Some?
    ensures Interpret(Received(resp)) == Interpret(Received(resp.(status := otherStatus)))
  {
  }

  /** A status outside the success, client-error and server-error classes
      (an informational or redirection status) is not an error here: the
      library's `error_for_status` lets it through and the body is the
      result. */
  lemma NonErrorStatusPassesThrough(resp: Response)
    requires GetHeader(resp.headers, ErrorCodeHeader).None?
    requires !IsClientError(resp.status) && !IsServerError(resp.status)
    requires resp.body.Ok?
    ensures Interpret(Received(resp)) == Ok(resp.body.value)
  {
  }

  // The service endpoints and the redirect target shown after login.
  const RequestEndpoint: string := "https://getpocket.com/v3/oauth/request"
  const AuthorizeEndpoint: string := "https://getpocket.com/v3/oauth/authorize"
  const AddEndpoint: string := "https://getpocket.com/v3/add"
  const AuthorizePage: string := "https://getpocket.com/auth/authorize"
  const RedirectUri: string :=
    "data:text/plain,Return%20to%20feeds-to-pocket%20and%20press%20Enter%20to%20finish%2E"

  /** The request bodies the client sends, with the endpoint each goes to. */
  datatype Request =
    | OAuthRequest(consumerKey: string, redirectUri: string)
    | AuthorizeRequest(consumerKey: string, code: string)
    | AddRequest(consumerKey: string, accessToken: string, url: string,
                 title: Option<string>, tags: Option<string>, tweetId: Option<string>)
  {
    function Endpoint(): string {
      match this
      case OAuthRequest(_, _) => RequestEndpoint
      case AuthorizeRequest(_, _) => AuthorizeEndpoint
      case AddRequest(_, _, _, _, _, _) => AddEndpoint
    }
  }

  /** The client's credentials: the consumer key, the access token once
      known, and the one-time code obtained while logging in. */
  datatype Session = Session(consumerKey: string, accessToken: Option<string>, code: Option<string>)

  /** `Pocket::new`: no login code yet. */
  function NewSession(consumerKey: string, accessToken: Option<string>): (s: Session)
    ensures s.consumerKey == consumerKey && s.accessToken == accessToken && s.code.None?
  {
    Session(consumerKey, accessToken, None)
  }

  /** The authorization page with its two query parameters. */
  datatype AuthUrl = AuthUrl(page: string, requestToken: string, redirectUri: string)

  /** `get_auth_url`: asks the service for a login code. On success the
      session remembers the code and the page URL carries it; on any
      failure the session is unchanged. */
  function GetAuthUrl(s: Session, transport: Request -> Exchange, decodeCode: string -> Result<string, string>)
    : (out: (Session, Result<AuthUrl, PocketError>))
    requires Readable(transport(OAuthRequest(s.consumerKey, RedirectUri)))
    ensures out.1.Ok? ==> out.0 == s.(code := Some(out.1.value.requestToken))
    ensures out.1.Ok? ==> out.1.value.page == AuthorizePage && out.1.value.redirectUri == RedirectUri
    ensures out.1.Err? ==> out.0 == s
    ensures out.1.Ok? <==>
              Interpret(transport(OAuthRequest(s.consumerKey, RedirectUri))).Ok?
              && decodeCode(Interpret(transport(OAuthRequest(s.consumerKey, RedirectUri))).value).Ok?
    ensures var x := Interpret(transport(OAuthRequest(s.consumerKey, RedirectUri)));
            && (x.Err? ==> out.1 == Err(x.error))
            && (x.Ok? && decodeCode(x.value).Err? ==> out.1 == Err(SerdeJson(decodeCode(x.value).error)))
            && (out.1.Ok? ==> out.1.value.requestToken == decodeCode(x.value).value)
  {
    match Interpret(transport(OAuthRequest(s.consumerKey, RedirectUri)))
    case Err(e) => (s, Err(e))
    case Ok(body) =>
      match decodeCode(body)
      case Err(t) => (s, Err(SerdeJson(t)))
      case Ok(code) => (s.(code := Some(code)), Ok(AuthUrl(AuthorizePage, code, RedirectUri)))
  }

  /** `authorize`: trades the login code for an access token. The code must
      be known (the client panics otherwise). On success the session holds
      the new token and the user name is returned; on failure the session
      is unchanged. */
  function Authorize(s: Session, transport: Request -> Exchange,
                     decodeToken: string -> Result<(string, string), string>)
    : (out: (Session, Result<string, PocketError>))
    requires s.code.Some?
    requires Readable(transport(AuthorizeRequest(s.consumerKey, s.code.value)))
    ensures out.1.Ok? ==> out.0.accessToken.Some? && out.0 == s.(accessToken := out.0.accessToken)
    ensures out.1.Err? ==> out.0 == s
    ensures out.1.Ok? <==>
              Interpret(transport(AuthorizeRequest(s.consumerKey, s.code.value))).Ok?
              && decodeToken(Interpret(transport(AuthorizeRequest(s.consumerKey, s.code.value))).value).Ok?
    ensures var x := Interpret(transport(AuthorizeRequest(s.consumerKey, s.code.value)));
            && (x.Err? ==> out.1 == Err(x.error))
            && (x.Ok? && decodeToken(x.value).Err? ==> out.1 == Err(SerdeJson(decodeToken(x.value).error)))
            && (out.1.Ok? ==> out.0.accessToken == Some(decodeToken(x.value).value.0)
                              && out.1.value == decodeToken(x.value).value.1)
  {
    match Interpret(transport(AuthorizeRequest(s.consumerKey, s.code.value)))
    case Err(e) => (s, Err(e))
    case Ok(body) =>
      match decodeToken(body)
      case Err(t) => (s, Err(SerdeJson(t)))
      case Ok(pair) => (s.(accessToken := Some(pair.0)), Ok(pair.1))
  }

  /** The add-item request built from the session: both credentials and the
      item. The access token must be known (the client panics otherwise). */
  function AddItemRequest(s: Session, url: string, title: Option<string>, tags: Option<string>,
                          tweetId: Option<string>): (req: Request)
    requires s.accessToken.Some?
    ensures req.AddRequest? && req.Endpoint() == AddEndpoint
    ensures req.consumerKey == s.consumerKey && req.accessToken == s.accessToken.value
    ensures req.url == url && req.title == title && req.tags == tags && req.tweetId == tweetId
  {
    AddRequest(s.consumerKey, s.accessToken.value, url, title, tags, tweetId)
  }

  /** `add`: submits one item; the response body is discarded. */
  function Add(s: Session, url: string, title: Option<string>, tags: Option<string>,
               tweetId: Option<string>, transport: Request -> Exchange): (r: Result<(), PocketError>)
    requires s.accessToken.Some?
    requires Readable(transport(AddItemRequest(s, url, title, tags, tweetId)))
    ensures r.Ok? <==> Interpret(transport(AddItemRequest(s, url, title, tags, tweetId))).Ok?
    ensures r.Err? ==> r.error == Interpret(transport(AddItemRequest(s, url, title, tags, tweetId))).error
  {
    match Interpret(transport(AddItemRequest(s, url, title, tags, tweetId)))
    case Ok(_) => Ok(())
    case Err(e) => Err(e)
  }

  /** Logging in end to end: the `authorize` call after a successful
      `get_auth_url` sends the code the service returned, and once it
      succeeds every `add` request carries the consumer key and the access
      token the service returned. */
  lemma LoginEnablesAdd(s: Session, transport: Request -> Exchange,
                        decodeCode: string -> Result<string, string>,
                        decodeToken: string -> Result<(string, string), string>,
                        url: string, title: Option<string>, tags: Option<string>, tweetId: Option<string>)
    requires Readable(transport(OAuthRequest(s.consumerKey, RedirectUri)))
    requires GetAuthUrl(s, transport, decodeCode).1.Ok?
    requires var s1 := GetAuthUrl(s, transport, decodeCode).0;
             s1.code.Some? && Readable(transport(AuthorizeRequest(s1.consumerKey, s1.code.value)))
    requires var s1 := GetAuthUrl(s, transport, decodeCode).0;
             Authorize(s1, transport, decodeToken).1.Ok?
    ensures var code := decodeCode(Interpret(transport(OAuthRequest(s.consumerKey, RedirectUri))).value).value;
            var x := Interpret(transport(AuthorizeRequest(s.consumerKey, code)));
            var s2 := Authorize(GetAuthUrl(s, transport, decodeCode).0, transport, decodeToken).0;
            && s2.accessToken.Some?
            && AddItemRequest(s2, url, title, tags, tweetId)
               == AddRequest(s.consumerKey, decodeToken(x.value).value.0, url, title, tags, tweetId)
  {
    var s1 := GetAuthUrl(s, transport, decodeCode).0;
    assert s1.consumerKey == s.consumerKey;
  }

  /** The text of a `PocketError`: the HTTP library's text (`httpText`) or
      the protocol message with its code, followed by the response body on
      a line of its own when there is one. The text reads back: when the
      first part is a single line, it is the first line of the text and the
      rest is exactly the body. */
  function ErrorText(e: PocketError, httpText: HttpError -> string): (r: string)
    ensures e.Proto? && '\n' !in e.code && '\n' !in e.message ==>
              SplitFirstLine(r) == (e.message + " (code " + e.code + ")", e.body)
    ensures e.Http? && '\n' !in httpText(e.error) ==> SplitFirstLine(r) == (httpText(e.error), e.body)
  {
    match e
    case Http(err, body) =>
      var text := httpText(err) + BodySuffix(body);
      if '\n' in httpText(err) then text else SplitFirstLineAfter(httpText(err), body); text
    case Io(t) => t
    case SerdeJson(t) => t
    case Proto(code, msg, body) =>
      var head := msg + " (code " + code + ")";
      var text := head + BodySuffix(body);
      if '\n' in code || '\n' in msg then text else SplitFirstLineAfter(head, body); text
  }

  function BodySuffix(body: Option<string>): string {
    match body
    case None => ""
    case Some(b) => "\n" + b
  }

  /** The text up to the first line feed, and what follows it if there is
      one. */
  function SplitFirstLine(s: string): (r: (string, Option<string>))
    ensures '\n' !in r.0
  {
    if |s| == 0 then ("", None)
    else if s[0] == '\n' then ("", Some(s[1..]))
    else
      var rest := SplitFirstLine(s[1..]);
      ([s[0]] + rest.0, rest.1)
  }

  lemma {:induction false} SplitFirstLineAfter(head: string, body: Option<string>)
    requires '\n' !in head
    ensures SplitFirstLine(head + BodySuffix(body)) == (head, body)
    decreases |head|
  {
    if |head| == 0 {
      assert head + BodySuffix(body) == BodySuffix(body);
      if body.Some? {
        assert ("\n" + body.value)[1..] == body.value;
      }
    } else {
      assert '\n' !in head[1..] by {
        forall k | 0 <= k < |head[1..]| ensures head[1..][k] != '\n' {
          assert head[1..][k] == head[k + 1];
        }
      }
      SplitFirstLineAfter(head[1..], body);
      assert (head + BodySuffix(body))[1..] == head[1..] + BodySuffix(body);
      assert [head[0]] + head[1..] == head;
    }
  }
}

=== FILE: reconcile.dfy ===
/** The per-feed reconciliation loop of `process_feed` (src/main.rs): the
    parsed feed is turned into candidate links, oldest first; each link is
    trimmed, skipped when already processed, otherwise pushed to the sink
    (or taken as read when there is no sink), and recorded only when that
    counts as processed. */
module Reconciliation {
  import opened Results
  import opened Text

  /** A parsed feed: an RSS channel's items, each with an optional link, or
      an Atom feed's entries, each with its links in document order. Items
      and entries are in document order, newest first. */
  datatype ParsedFeed = Rss(itemLinks: seq<Option<string>>) | Atom(entryLinks: seq<seq<string>>)

  /** The concatenation of the parts, last part first. */
  function ReverseFlatten(parts: seq<seq<string>>): (r: seq<string>)
    ensures forall x :: x in r <==> exists i :: 0 <= i < |parts| && x in parts[i]
  {
    if |parts| == 0 then []
    else
      var init := parts[..|parts| - 1];
      var r := parts[|parts| - 1] + ReverseFlatten(init);
      assert forall i :: 0 <= i < |init| ==> parts[i] == init[i];
      r
  }

  function Reverse(s: seq<seq<string>>): (r: seq<seq<string>>)
    ensures |r| == |s| && forall i :: 0 <= i < |s| ==> r[i] == s[|s| - 1 - i]
  {
    seq(|s|, i requires 0 <= i < |s| => s[|s| - 1 - i])
  }

  function Flatten(parts: seq<seq<string>>): seq<string> {
    if |parts| == 0 then [] else parts[0] + Flatten(parts[1..])
  }

  /** `into_iter().rev().flat_map(..)` is `Flatten` of the reversed list. */
  lemma {:induction false} ReverseFlattenIsFlattenOfReverse(parts: seq<seq<string>>)
    ensures ReverseFlatten(parts) == Flatten(Reverse(parts))
    decreases |parts|
  {
    if |parts| > 0 {
      var init := parts[..|parts| - 1];
      ReverseFlattenIsFlattenOfReverse(init);
      assert Reverse(parts) == [parts[|parts| - 1]] + Reverse(init);
      assert Reverse(parts)[1..] == Reverse(init);
    }
  }

  lemma {:induction false} ReverseFlattenAppend(a: seq<seq<string>>, b: seq<seq<string>>)
    ensures ReverseFlatten(a + b) == ReverseFlatten(b) + ReverseFlatten(a)
    decreases |b|
  {
    if |b| == 0 {
      assert a + b == a;
    } else {
      var init := b[..|b| - 1];
      ReverseFlattenAppend(a, init);
      assert (a + b)[..|a + b| - 1] == a + init;
    }
  }

  /** An RSS item's contribution: its link, if it has one. */
  function LinkList(link: Option<string>): (r: seq<string>)
    ensures link.None? ==> r == []
    ensures link.Some? ==> r == [link.value]
  {
    match link
    case None => []
    case Some(l) => [l]
  }

  function ItemLinkLists(items: seq<Option<string>>): (r: seq<seq<string>>)
    ensures |r| == |items| && forall i :: 0 <= i < |items| ==> r[i] == LinkList(items[i])
  {
    seq(|items|, i requires 0 <= i < |items| => LinkList(items[i]))
  }

  /** The candidate links of a parsed feed, oldest first: a link is a
      candidate exactly when some RSS item has it as its link, or some Atom
      entry has it among its links. */
  function Candidates(feed: ParsedFeed): (r: seq<string>)
    ensures feed.Rss? ==> forall x :: x in r <==> Some(x) in feed.itemLinks
    ensures feed.Atom? ==> forall x :: x in r <==> exists i :: 0 <= i < |feed.entryLinks| && x in feed.entryLinks[i]
  {
    match feed
    case Rss(items) => ItemLinksMembership(items); ReverseFlatten(ItemLinkLists(items))
    case Atom(entries) => ReverseFlatten(entries)
  }

  /** Items later in the document come out earlier: the candidates of a
      feed are those of its older part followed by those of its newer
      part, for RSS items and Atom entries alike. */
  lemma CandidatesNewestLast(newer: seq<seq<string>>, older: seq<seq<string>>,
                             newerItems: seq<Option<string>>, olderItems: seq<Option<string>>)
    ensures Candidates(Atom(newer + older)) == Candidates(Atom(older)) + Candidates(Atom(newer))
    ensures Candidates(Rss(newerItems + olderItems)) == Candidates(Rss(olderItems)) + Candidates(Rss(newerItems))
  {
    ReverseFlattenAppend(newer, older);
    ItemLinkListsAppend(newerItems, olderItems);
    ReverseFlattenAppend(ItemLinkLists(newerItems), ItemLinkLists(olderItems));
  }

  /** An Atom entry contributes all of its links, in their own order. */
  lemma AtomEntryLinksInOrder(links: seq<string>)
    ensures Candidates(Atom([links])) == links
  {
    assert [links][..0] == [];
    assert ReverseFlatten([links]) == links + ReverseFlatten([]);
  }

  /** An RSS item without a link contributes nothing. */
  lemma RssLinklessItemIgnored(newer: seq<Option<string>>, older: seq<Option<string>>)
    ensures Candidates(Rss(newer + [None] + older)) == Candidates(Rss(newer + older))
  {
    var a, b := ItemLinkLists(newer), ItemLinkLists(older);
    ItemLinkListsAppend(newer + [None], older);
    ItemLinkListsAppend(newer, [None]);
    ItemLinkListsAppend(newer, older);
    assert ItemLinkLists([None]) == [[]];
    ReverseFlattenDropEmpty(a, b);
  }

  lemma ReverseFlattenDropEmpty(a: seq<seq<string>>, b: seq<seq<string>>)
    ensures ReverseFlatten(a + [[]] + b) == ReverseFlatten(a + b)
  {
    ReverseFlattenAppend(a + [[]], b);
    ReverseFlattenAppend(a, [[]]);
    ReverseFlattenAppend(a, b);
    assert ReverseFlatten([[]]) == [] + ReverseFlatten([]);
  }

  lemma ItemLinkListsAppend(x: seq<Option<string>>, y: seq<Option<string>>)
    ensures ItemLinkLists(x + y) == ItemLinkLists(x) + ItemLinkLists(y)
  {
  }

  lemma ItemLinksMembership(items: seq<Option<string>>)
    ensures forall link :: link in ReverseFlatten(ItemLinkLists(items)) <==> Some(link) in items
  {
    var lists := ItemLinkLists(items);
    forall link ensures link in ReverseFlatten(lists) <==> Some(link) in items {
      if link in ReverseFlatten(lists) {
        var i :| 0 <= i < |lists| && link in lists[i];
        assert items[i] == Some(link);
      }
      if Some(link) in items {
        var i :| 0 <= i < |items| && items[i] == Some(link);
        assert link in lists[i];
      }
    }
  }

  /** One push to the sink, and whether it succeeded. */
  datatype Attempt = Attempt(url: string, ok: bool)

  /** The state the loop carries: the feed's processed entries, and the
      pushes made so far. */
  datatype Progress = Progress(processed: seq<string>, attempts: seq<Attempt>)

  /** The sink: `None` when entries are to be taken as read, otherwise the
      push oracle, which says whether a push succeeded. */
  type Sink = Option<string -> bool>

  /** Whether a new entry counts as processed: always without a sink,
      otherwise when its push succeeds. */
  predicate Accepts(sink: Sink, url: string) {
    match sink
    case None => true
    case Some(push) => push(url)
  }

  /** `processed_entries.iter().rev().any(|x| x == url)`: a search from the
      newest entry back, by exact string equality. */
  function SeenBefore(history: seq<string>, url: string): (r: bool)
    ensures r <==> url in history
  {
    if |history| == 0 then false
    else
      var init := history[..|history| - 1];
      assert history == init + [history[|history| - 1]];
      history[|history| - 1] == url || SeenBefore(init, url)
  }

  /** One turn of the loop for the raw link `link`. */
  function Visit(p: Progress, link: string, sink: Sink): Progress {
    var url := Trim(link);
    if SeenBefore(p.processed, url) then p
    else
      match sink
      case None => p.(processed := p.processed + [url])
      case Some(push) =>
        var ok := push(url);
        Progress(if ok then p.processed + [url] else p.processed, p.attempts + [Attempt(url, ok)])
  }

  /** The whole loop over the candidate links, in order. The history and the
      push log only grow at their ends. */
  function Reconcile(p: Progress, links: seq<string>, sink: Sink): (q: Progress)
    ensures p.processed <= q.processed
    ensures p.attempts <= q.attempts
    decreases |links|
  {
    if |links| == 0 then p
    else Reconcile(Visit(p, links[0], sink), links[1..], sink)
  }

  /** The candidate links after trimming. */
  function Trimmed(links: seq<string>): (r: seq<string>)
    ensures |r| == |links| && forall i :: 0 <= i < |links| ==> r[i] == Trim(links[i])
  {
    seq(|links|, i requires 0 <= i < |links| => Trim(links[i]))
  }

  lemma TrimmedTail(links: seq<string>)
    requires |links| > 0
    ensures Trimmed(links) == [Trim(links[0])] + Trimmed(links[1..])
  {
  }

  /** After the loop, an entry is recorded exactly when it was recorded
      before, or it is a trimmed candidate that counts as processed (taken as
      read without a sink, pushed successfully with one). */
  lemma {:induction false} ReconcileMembership(p: Progress, links: seq<string>, sink: Sink, u: string)
    ensures u in Reconcile(p, links, sink).processed
        <==> u in p.processed || (u in Trimmed(links) && Accepts(sink, u))
    decreases |links|
  {
    if |links| > 0 {
      var v := Visit(p, links[0], sink);
      ReconcileMembership(v, links[1..], sink, u);
      VisitMembership(p, links[0], sink, u);
      TrimmedMembership(links, u);
    }
  }

  lemma VisitMembership(p: Progress, link: string, sink: Sink, u: string)
    ensures u in Visit(p, link, sink).processed <==> u in p.processed || (u == Trim(link) && Accepts(sink, u))
  {
  }

  /** A link whose trimmed form is already recorded is skipped: no push,
      nothing recorded. */
  lemma VisitSkipsSeen(p: Progress, link: string, sink: Sink)
    requires Trim(link) in p.processed
    ensures Visit(p, link, sink) == p
  {
  }

  /** When every candidate, once trimmed, is already recorded, the loop
      changes nothing and pushes nothing. */
  lemma {:induction false} ReconcileSkipsSeen(p: Progress, links: seq<string>, sink: Sink)
    requires forall i :: 0 <= i < |links| ==> Trim(links[i]) in p.processed
    ensures Reconcile(p, links, sink) == p
    decreases |links|
  {
    if |links| > 0 {
      VisitSkipsSeen(p, links[0], sink);
      assert forall i :: 0 <= i < |links[1..]| ==> links[1..][i] == links[i + 1];
      ReconcileSkipsSeen(p, links[1..], sink);
    }
  }

  lemma TrimmedMembership(links: seq<string>, u: string)
    requires |links| > 0
    ensures u in Trimmed(links) <==> u == Trim(links[0]) || u in Trimmed(links[1..])
  {
    TrimmedTail(links);
  }

  /** Every entry appended by the loop is a trimmed candidate that counts as
      processed and was not recorded before. */
  lemma {:induction false} ReconcileGrowth(p: Progress, links: seq<string>, sink: Sink, k: nat)
    requires |p.processed| <= k < |Reconcile(p, links, sink).processed|
    ensures Reconcile(p, links, sink).processed[k] !in p.processed
    ensures Reconcile(p, links, sink).processed[k] in Trimmed(links)
    ensures Accepts(sink, Reconcile(p, links, sink).processed[k])
    decreases |links|
  {
    var v := Visit(p, links[0], sink);
    var q := Reconcile(v, links[1..], sink).processed;
    assert Reconcile(p, links, sink).processed == q;
    TrimmedTail(links);
    if k >= |v.processed| {
      ReconcileGrowth(v, links[1..], sink, k);
      assert p.processed <= v.processed;
    } else {
      var t := Trim(links[0]);
      assert v.processed == p.processed + [t];
      assert q[k] == v.processed[k] == t;
    }
  }

  predicate NoDuplicates(s: seq<string>) {
    forall i, j :: 0 <= i < j < |s| ==> s[i] != s[j]
  }

  /** A history without duplicates stays without duplicates, even when a
      link repeats within one feed: membership is checked against the
      history as it grows. */
  lemma {:induction false} ReconcileNoDuplicates(p: Progress, links: seq<string>, sink: Sink)
    requires NoDuplicates(p.processed)
    ensures NoDuplicates(Reconcile(p, links, sink).processed)
    decreases |links|
  {
    if |links| > 0 {
      VisitNoDuplicates(p, links[0], sink);
      ReconcileNoDuplicates(Visit(p, links[0], sink), links[1..], sink);
    }
  }

  lemma VisitNoDuplicates(p: Progress, link: string, sink: Sink)
    requires NoDuplicates(p.processed)
    ensures NoDuplicates(Visit(p, link, sink).processed)
  {
  }

  /** Every entry of the history is trimmed. */
  predicate AllTrimmed(history: seq<string>) {
    forall i :: 0 <= i < |history| ==> IsTrimmed(history[i])
  }

  /** Every recorded entry is trimmed, provided the old ones were. */
  lemma {:induction false} ReconcileKeepsTrimmed(p: Progress, links: seq<string>, sink: Sink)
    requires AllTrimmed(p.processed)
    ensures AllTrimmed(Reconcile(p, links, sink).processed)
    decreases |links|
  {
    if |links| > 0 {
      VisitKeepsTrimmed(p, links[0], sink);
      ReconcileKeepsTrimmed(Visit(p, links[0], sink), links[1..], sink);
    }
  }

  lemma VisitKeepsTrimmed(p: Progress, link: string, sink: Sink)
    requires AllTrimmed(p.processed)
    ensures AllTrimmed(Visit(p, link, sink).processed)
  {
    var v := Visit(p, link, sink).processed;
    forall i | 0 <= i < |v| ensures IsTrimmed(v[i]) {
      if i >= |p.processed| {
        assert v[i] == Trim(link);
      }
    }
  }

  /** The urls of the successful attempts, in order. */
  function Succeeded(attempts: seq<Attempt>): seq<string> {
    if |attempts| == 0 then []
    else (if attempts[0].ok then [attempts[0].url] else []) + Succeeded(attempts[1..])
  }

  lemma {:induction false} SucceededAppend(a: seq<Attempt>, b: seq<Attempt>)
    ensures Succeeded(a + b) == Succeeded(a) + Succeeded(b)
    decreases |a|
  {
    if |a| == 0 {
      assert a + b == b;
    } else {
      assert (a + b)[1..] == a[1..] + b;
      SucceededAppend(a[1..], b);
    }
  }

  /** Without a sink nothing is pushed. */
  lemma {:induction false} ReconcileWithoutSinkPushesNothing(p: Progress, links: seq<string>)
    ensures Reconcile(p, links, None).attempts == p.attempts
    decreases |links|
  {
    if |links| > 0 {
      ReconcileWithoutSinkPushesNothing(Visit(p, links[0], None), links[1..]);
    }
  }

  /** Each push the loop makes reports what the sink answered, and concerns
      a trimmed candidate that was not recorded before: an entry already
      processed is never pushed again. */
  lemma {:induction false} ReconcileAttempt(p: Progress, links: seq<string>, sink: Sink, i: nat)
    requires |p.attempts| <= i < |Reconcile(p, links, sink).attempts|
    ensures var a := Reconcile(p, links, sink).attempts[i];
            && sink.Some?
            && a.ok == sink.value(a.url)
            && a.url !in p.processed
            && a.url in Trimmed(links)
    decreases |links|
  {
    var v := Visit(p, links[0], sink);
    var q := Reconcile(v, links[1..], sink).attempts;
    assert Reconcile(p, links, sink).attempts == q;
    TrimmedTail(links);
    if i >= |v.attempts| {
      ReconcileAttempt(v, links[1..], sink, i);
      assert p.processed <= v.processed;
    } else {
      assert v.attempts <= q;
      assert q[i] == v.attempts[i];
    }
  }

  /** With a sink, the entries appended are exactly the urls of the
      successful pushes, in push order: a failed push is not recorded. */
  lemma {:induction false} ReconcileRecordsSuccesses(p: Progress, links: seq<string>, push: string -> bool)
    ensures var q := Reconcile(p, links, Some(push));
            q.processed == p.processed + Succeeded(q.attempts[|p.attempts|..])
    decreases |links|
  {
    var q := Reconcile(p, links, Some(push));
    if |links| == 0 {
      assert q.attempts[|p.attempts|..] == [];
    } else {
      var v := Visit(p, links[0], Some(push));
      ReconcileRecordsSuccesses(v, links[1..], push);
      VisitRecordsSuccess(p, links[0], push);
      assert q == Reconcile(v, links[1..], Some(push));
      var mine := v.attempts[|p.attempts|..];
      var rest := q.attempts[|v.attempts|..];
      PrefixSlices(p.attempts, v.attempts, q.attempts);
      SucceededAppend(mine, rest);
      AppendAssoc(p.processed, Succeeded(mine), Succeeded(rest));
    }
  }

  lemma VisitRecordsSuccess(p: Progress, link: string, push: string -> bool)
    ensures var v := Visit(p, link, Some(push));
            v.processed == p.processed + Succeeded(v.attempts[|p.attempts|..])
  {
    var v := Visit(p, link, Some(push));
    var t := Trim(link);
    if t !in p.processed {
      assert v.attempts[|p.attempts|..] == [Attempt(t, push(t))];
      assert Succeeded([Attempt(t, push(t))]) == (if push(t) then [t] else []) + Succeeded([]);
    } else {
      assert v.attempts[|p.attempts|..] == [];
    }
  }

  lemma PrefixSlices(a: seq<Attempt>, b: seq<Attempt>, c: seq<Attempt>)
    requires a <= b <= c
    ensures c[|a|..] == b[|a|..] + c[|b|..]
  {
  }

  lemma AppendAssoc(a: seq<string>, b: seq<string>, c: seq<string>)
    ensures (a + b) + c == a + (b + c)
  {
  }

  /** With a sink, every trimmed candidate not recorded before is pushed at
      least once: a failed push does not stop the loop. */
  lemma {:induction false} ReconcilePushesEveryNew(p: Progress, links: seq<string>, push: string -> bool, u: string)
    requires u in Trimmed(links) && u !in p.processed
    ensures exists i :: |p.attempts| <= i < |Reconcile(p, links, Some(push)).attempts|
                        && Reconcile(p, links, Some(push)).attempts[i].url == u
    decreases |links|
  {
    var v := Visit(p, links[0], Some(push));
    var q := Reconcile(v, links[1..], Some(push)).attempts;
    assert Reconcile(p, links, Some(push)).attempts == q;
    TrimmedMembership(links, u);
    if u == Trim(links[0]) {
      VisitFresh(p, links[0], push);
      assert q[|p.attempts|] == v.attempts[|p.attempts|];
    } else {
      VisitMembership(p, links[0], Some(push), u);
      ReconcilePushesEveryNew(v, links[1..], push, u);
    }
  }

  /** Taking entries as read records exactly what a sink that accepts every
      push records. */
  lemma {:induction false} NoSinkIsAcceptingSink(p: Progress, p': Progress, links: seq<string>, push: string -> bool)
    requires forall u :: push(u)
    requires p.processed == p'.processed
    ensures Reconcile(p, links, None).processed == Reconcile(p', links, Some(push)).processed
    decreases |links|
  {
    if |links| > 0 {
      NoSinkIsAcceptingSink(Visit(p, links[0], None), Visit(p', links[0], Some(push)), links[1..], push);
    }
  }

  /** When no trimmed candidate is both new and accepted, the loop records
      nothing. */
  lemma NothingNewNothingRecorded(p: Progress, links: seq<string>, sink: Sink)
    requires forall u :: u in Trimmed(links) && u !in p.processed ==> !Accepts(sink, u)
    ensures Reconcile(p, links, sink).processed == p.processed
  {
    var q := Reconcile(p, links, sink).processed;
    if |q| > |p.processed| {
      ReconcileGrowth(p, links, sink, |p.processed|);
      assert false;
    }
  }

  /** Running the loop again over the same candidates, against a sink that
      answers every link as it did in the first run, records nothing more:
      what the first run recorded is skipped, and what it did not record is
      not accepted the second time either. Without a sink the second run
      pushes nothing; with one, every push it makes fails again. */
  lemma ReconcileIdempotent(p: Progress, links: seq<string>, sink: Sink)
    ensures var q := Reconcile(p, links, sink);
            var q2 := Reconcile(Progress(q.processed, []), links, sink);
            && q2.processed == q.processed
            && (sink.None? ==> q2.attempts == [])
            && (forall i :: 0 <= i < |q2.attempts| ==> !q2.attempts[i].ok)
  {
    var q := Reconcile(p, links, sink);
    var p2 := Progress(q.processed, []);
    forall u | u in Trimmed(links) && u !in q.processed ensures !Accepts(sink, u) {
      ReconcileMembership(p, links, sink, u);
    }
    NothingNewNothingRecorded(p2, links, sink);
    if sink.None? {
      ReconcileWithoutSinkPushesNothing(p2, links);
    }
    var q2 := Reconcile(p2, links, sink);
    forall i | 0 <= i < |q2.attempts| ensures !q2.attempts[i].ok {
      ReconcileAttempt(p2, links, sink, i);
    }
  }

  /** The links whose push succeeds, in order. */
  function Kept(links: seq<string>, push: string -> bool): (r: seq<string>)
    ensures forall u :: u in r <==> u in links && push(u)
  {
    if |links| == 0 then []
    else (if push(links[0]) then [links[0]] else []) + Kept(links[1..], push)
  }

  /** One push per link, in order, with its outcome. */
  function Pushes(links: seq<string>, push: string -> bool): (r: seq<Attempt>)
    ensures |r| == |links|
    ensures forall i :: 0 <= i < |links| ==> r[i] == Attempt(links[i], push(links[i]))
  {
    if |links| == 0 then []
    else [Attempt(links[0], push(links[0]))] + Pushes(links[1..], push)
  }


  /** A link whose trimmed form is new is pushed, and recorded when the
      push succeeds. */
  lemma VisitFresh(p: Progress, link: string, push: string -> bool)
    requires Trim(link) !in p.processed
    ensures var u := Trim(link);
            Visit(p, link, Some(push))
              == Progress(if push(u) then p.processed + [u] else p.processed, p.attempts + [Attempt(u, push(u))])
  {
  }

  lemma AttemptsAssoc(a: seq<Attempt>, b: seq<Attempt>, c: seq<Attempt>)
    ensures (a + b) + c == a + (b + c)
  {
  }

  /** Partial failure, exactly: when the trimmed candidates are distinct and
      none is recorded yet, the loop pushes every one of them in order and
      records precisely those whose push succeeded, keeping their order; a
      failed push stops nothing, and its link stays unrecorded for a later
      run to retry. */
  lemma {:induction false} ReconcileFresh(p: Progress, links: seq<string>, push: string -> bool)
    requires forall i :: 0 <= i < |links| ==> Trim(links[i]) !in p.processed
    requires NoDuplicates(Trimmed(links))
    ensures Reconcile(p, links, Some(push))
         == Progress(p.processed + Kept(Trimmed(links), push), p.attempts + Pushes(Trimmed(links), push))
    decreases |links|
  {
    if |links| > 0 {
      var u := Trim(links[0]);
      var v := Visit(p, links[0], Some(push));
      var rest := Trimmed(links[1..]);
      FreshTail(p, links, push);
      ReconcileFresh(v, links[1..], push);
      FreshStep(p, links, push);
      RegroupProgress(p, v, u, push(u), Kept(rest, push), Pushes(rest, push));
    }
  }

  lemma FreshTail(p: Progress, links: seq<string>, push: string -> bool)
    requires |links| > 0
    requires forall i :: 0 <= i < |links| ==> Trim(links[i]) !in p.processed
    requires NoDuplicates(Trimmed(links))
    ensures var v := Visit(p, links[0], Some(push));
            forall i :: 0 <= i < |links[1..]| ==> Trim(links[1..][i]) !in v.processed
    ensures NoDuplicates(Trimmed(links[1..]))
  {
    VisitFresh(p, links[0], push);
    var v := Visit(p, links[0], Some(push));
    var t := Trimmed(links);
    forall i | 0 <= i < |links[1..]| ensures Trim(links[1..][i]) !in v.processed {
      assert links[1..][i] == links[i + 1];
      assert t[i + 1] != t[0];
    }
    TrimmedTail(links);
  }

  /** One step of the loop over a fresh first link, and the matching step
      of the reference lists. */
  lemma FreshStep(p: Progress, links: seq<string>, push: string -> bool)
    requires |links| > 0 && Trim(links[0]) !in p.processed
    ensures var u := Trim(links[0]);
            var v := Visit(p, links[0], Some(push));
            && Reconcile(p, links, Some(push)) == Reconcile(v, links[1..], Some(push))
            && v == Progress(if push(u) then p.processed + [u] else p.processed, p.attempts + [Attempt(u, push(u))])
            && Kept(Trimmed(links), push) == (if push(u) then [u] else []) + Kept(Trimmed(links[1..]), push)
            && Pushes(Trimmed(links), push) == [Attempt(u, push(u))] + Pushes(Trimmed(links[1..]), push)
  {
    VisitFresh(p, links[0], push);
    TrimmedFront(links, push);
  }

  lemma TrimmedFront(links: seq<string>, push: string -> bool)
    requires |links| > 0
    ensures var u := Trim(links[0]);
            && Kept(Trimmed(links), push) == (if push(u) then [u] else []) + Kept(Trimmed(links[1..]), push)
            && Pushes(Trimmed(links), push) == [Attempt(u, push(u))] + Pushes(Trimmed(links[1..]), push)
  {
    TrimmedTail(links);
    assert Trimmed(links)[1..] == Trimmed(links[1..]);
  }

  lemma RegroupProgress(p: Progress, v: Progress, u: string, ok: bool, kept: seq<string>, pushes: seq<Attempt>)
    requires v == Progress(if ok then p.processed + [u] else p.processed, p.attempts + [Attempt(u, ok)])
    ensures Progress(v.processed + kept, v.attempts + pushes)
         == Progress(p.processed + ((if ok then [u] else []) + kept), p.attempts + ([Attempt(u, ok)] + pushes))
  {
    AppendAssoc(p.processed, if ok then [u] else [], kept);
    AttemptsAssoc(p.attempts, [Attempt(u, ok)], pushes);
  }

  /** The source's loop, with the history and push log updated in place. */
  method ProcessEntries(processed: seq<string>, links: seq<string>, sink: Sink)
    returns (history: seq<string>, attempts: seq<Attempt>)
    ensures Progress(history, attempts) == Reconcile(Progress(processed, []), links, sink)
  {
    history, attempts := processed, [];
    var i := 0;
    while i < |links|
      invariant 0 <= i <= |links|
      invariant Reconcile(Progress(history, attempts), links[i..], sink)
             == Reconcile(Progress(processed, []), links, sink)
    {
      var url := TrimOwned(links[i]);
      if !SeenBefore(history, url) {
        var isProcessed;
        match sink {
          case Some(push) =>
            var ok := push(url);
            attempts := attempts + [Attempt(url, ok)];
            isProcessed := ok;
          case None =>
            isProcessed := true;
        }
        if isProcessed {
          history := history + [url];
        }
      }
      assert links[i..][1..] == links[i + 1..];
      i := i + 1;
    }
  }
}

=== FILE: results.dfy ===
/** Failure-carrying values shared by the whole model: Rust's `Option<T>`
    and `Result<T, E>`. */
module Results {

  datatype Option<+T> = None | Some(value: T) {

    /** The contents, or `default` when there are none. */
    function GetOr(default: T): T {
      match this
      case Some(v) => v
      case None => default
    }
  }

  datatype Result<+T, +E> = Ok(value: T) | Err(error: E) {

    /** Rust's `Result::ok`: keeps the success value and drops the error. */
    function ToOption(): Option<T> {
      match this
      case Ok(v) => Some(v)
      case Err(_) => None
    }
  }
}

=== FILE: text.dfy ===
/** Plain string helpers: the whitespace trimming applied to every feed
    link (src/main.rs `trim`) and the splitting on line feeds that the
    indenting writer relies on. */
module Text {

  /** Rust's `char::is_whitespace`, which `str::trim` uses: the characters
      with the Unicode `White_Space` property. */
  predicate IsWhitespace(c: char) {
    || ('\U{0009}' <= c <= '\U{000D}')
    || c == ' '
    || c == '\U{0085}'
    || c == '\U{00A0}'
    || c == '\U{1680}'
    || ('\U{2000}' <= c <= '\U{200A}')
    || c == '\U{2028}'
    || c == '\U{2029}'
    || c == '\U{202F}'
    || c == '\U{205F}'
    || c == '\U{3000}'
  }

  /** Every character of `s` is whitespace. */
  predicate AllWhitespace(s: string) {
    forall k :: 0 <= k < |s| ==> IsWhitespace(s[k])
  }

  /** `s` neither starts nor ends with whitespace. */
  predicate IsTrimmed(s: string) {
    |s| == 0 || (!IsWhitespace(s[0]) && !IsWhitespace(s[|s| - 1]))
  }

  /** `s` is `core` surrounded by whitespace only. */
  ghost predicate IsPadding(s: string, core: string) {
    exists i :: 0 <= i <= |s| - |core| && s[i..i + |core|] == core
      && AllWhitespace(s[..i]) && AllWhitespace(s[i + |core|..])
  }

  /** `str::trim_start`: drops the leading whitespace. */
  function TrimStart(s: string): string {
    if |s| == 0 || !IsWhitespace(s[0]) then s
    else TrimStart(s[1..])
  }

  /** What `TrimStart` drops is whitespace, and what it keeps is a suffix
      that does not start with whitespace. */
  lemma {:induction false} TrimStartSpec(s: string)
    ensures var r := TrimStart(s);
            && |r| <= |s| && r == s[|s| - |r|..]
            && AllWhitespace(s[..|s| - |r|])
            && (|r| == 0 || !IsWhitespace(r[0]))
    decreases |s|
  {
    if |s| > 0 && IsWhitespace(s[0]) {
      var r := TrimStart(s[1..]);
      TrimStartSpec(s[1..]);
      assert TrimStart(s) == r;
      var n := |s| - |r|;
      assert s[1..][n - 1..] == s[n..];
      assert s[..n] == [s[0]] + s[1..][..n - 1];
      WhitespaceCons(s[0], s[1..][..n - 1]);
    }
  }

  /** `str::trim_end`: drops the trailing whitespace. */
  function TrimEnd(s: string): string {
    if |s| == 0 || !IsWhitespace(s[|s| - 1]) then s
    else TrimEnd(s[..|s| - 1])
  }

  /** What `TrimEnd` drops is whitespace, and what it keeps is a prefix
      that does not end with whitespace. */
  lemma {:induction false} TrimEndSpec(s: string)
    ensures var r := TrimEnd(s);
            && |r| <= |s| && r == s[..|r|]
            && AllWhitespace(s[|r|..])
            && (|r| == 0 || !IsWhitespace(r[|r| - 1]))
    decreases |s|
  {
    if |s| > 0 && IsWhitespace(s[|s| - 1]) {
      var init := s[..|s| - 1];
      var r := TrimEnd(init);
      TrimEndSpec(init);
      assert TrimEnd(s) == r;
      assert init[..|r|] == s[..|r|];
      assert s[|r|..] == init[|r|..] + [s[|s| - 1]];
      WhitespaceSnoc(init[|r|..], s[|s| - 1]);
    }
  }

  lemma WhitespaceCons(c: char, t: string)
    requires IsWhitespace(c) && AllWhitespace(t)
    ensures AllWhitespace([c] + t)
  {
    forall k | 0 <= k < |[c] + t| ensures IsWhitespace(([c] + t)[k]) {
      if k > 0 {
        assert ([c] + t)[k] == t[k - 1];
      }
    }
  }

  lemma WhitespaceSnoc(t: string, c: char)
    requires AllWhitespace(t) && IsWhitespace(c)
    ensures AllWhitespace(t + [c])
  {
    forall k | 0 <= k < |t + [c]| ensures IsWhitespace((t + [c])[k]) {
      if k < |t| {
        assert (t + [c])[k] == t[k];
      }
    }
  }

  /** `str::trim`: the longest infix of `s` that neither starts nor ends
      with whitespace, once the whitespace around it is dropped. */
  function Trim(s: string): (r: string)
    ensures IsTrimmed(r)
  {
    TrimPads(s);
    TrimEnd(TrimStart(s))
  }

  /** `Trim` keeps the part of `s` between a leading and a trailing run of
      whitespace, and that part is trimmed. */
  lemma TrimPads(s: string)
    ensures IsTrimmed(TrimEnd(TrimStart(s)))
    ensures IsPadding(s, TrimEnd(TrimStart(s)))
  {
    var t := TrimStart(s);
    var r := TrimEnd(t);
    TrimStartSpec(s);
    TrimEndSpec(t);
    assert |r| == 0 || r[0] == t[0];
    PaddingWitness(s, t, r);
  }

  /** Trimming only drops whitespace around the result. */
  lemma TrimIsPadding(s: string)
    ensures IsPadding(s, Trim(s))
  {
    TrimPads(s);
  }

  lemma PaddingWitness(s: string, t: string, r: string)
    requires |t| <= |s| && t == s[|s| - |t|..] && AllWhitespace(s[..|s| - |t|])
    requires |r| <= |t| && r == t[..|r|] && AllWhitespace(t[|r|..])
    ensures IsPadding(s, r)
  {
    var i := |s| - |t|;
    assert s[i..i + |r|] == r;
    assert s[i + |r|..] == t[|r|..];
    assert 0 <= i <= |s| - |r| && s[i..i + |r|] == r && AllWhitespace(s[..i]) && AllWhitespace(s[i + |r|..]);
  }

  lemma {:induction false} TrimStartOfPadding(pre: string, x: string)
    requires AllWhitespace(pre)
    requires |x| == 0 || !IsWhitespace(x[0])
    ensures TrimStart(pre + x) == x
    decreases |pre|
  {
    if |pre| == 0 {
      assert pre + x == x;
    } else {
      assert (pre + x)[1..] == pre[1..] + x;
      TrimStartOfPadding(pre[1..], x);
    }
  }

  lemma {:induction false} TrimEndOfPadding(x: string, post: string)
    requires AllWhitespace(post)
    requires |x| == 0 || !IsWhitespace(x[|x| - 1])
    ensures TrimEnd(x + post) == x
    decreases |post|
  {
    if |post| == 0 {
      assert x + post == x;
    } else {
      assert (x + post)[..|x + post| - 1] == x + post[..|post| - 1];
      TrimEndOfPadding(x, post[..|post| - 1]);
    }
  }

  /** The trimmed form is the only trimmed string that `s` pads: whatever
      way `s` splits into whitespace, a trimmed core and whitespace, `Trim`
      returns that core. */
  lemma TrimUnique(s: string, pre: string, core: string, post: string)
    requires s == pre + core + post
    requires AllWhitespace(pre) && AllWhitespace(post)
    requires IsTrimmed(core)
    ensures Trim(s) == core
  {
    if |core| == 0 {
      assert s == pre + post;
      assert AllWhitespace(pre + post);
      assert s == (pre + post) + [];
      TrimStartOfPadding(pre + post, []);
    } else {
      assert s == pre + (core + post);
      TrimStartOfPadding(pre, core + post);
      TrimEndOfPadding(core, post);
    }
  }

  /** `trim` leaves an already trimmed string as it is, and only such a
      string. */
  lemma TrimFixpoint(s: string)
    ensures Trim(s) == s <==> IsTrimmed(s)
  {
    if IsTrimmed(s) {
      assert s == [] + s + [];
      TrimUnique(s, [], s, []);
    }
  }

  /** Trimming twice is trimming once. */
  lemma TrimIdempotent(s: string)
    ensures Trim(Trim(s)) == Trim(s)
  {
    TrimFixpoint(Trim(s));
  }

  /** A link with blanks and a line feed around it is recorded and compared
      without them. */
  lemma TrimExample()
    ensures Trim("  http://example.com/x \n") == "http://example.com/x"
  {
    assert "  http://example.com/x \n" == "  " + "http://example.com/x" + " \n";
    TrimUnique("  http://example.com/x \n", "  ", "http://example.com/x", " \n");
  }

  /** The source's `trim`: computes the bounds of the trimmed slice and
      hands back the input itself when nothing is cut off. */
  method TrimOwned(s: string) returns (r: string)
    ensures r == Trim(s)
    ensures IsTrimmed(s) ==> r == s
  {
    var lo := 0;
    while lo < |s| && IsWhitespace(s[lo])
      invariant 0 <= lo <= |s|
      invariant AllWhitespace(s[..lo])
    {
      lo := lo + 1;
    }
    var hi := |s|;
    while lo < hi && IsWhitespace(s[hi - 1])
      invariant lo <= hi <= |s|
      invariant AllWhitespace(s[hi..])
    {
      hi := hi - 1;
    }
    assert s == s[..lo] + s[lo..hi] + s[hi..];
    TrimUnique(s, s[..lo], s[lo..hi], s[hi..]);
    if lo == 0 && hi == |s| {
      r := s;
    } else {
      r := s[lo..hi];
    }
  }

  /** `str::split(sep)`: the pieces between separators, in order; there is
      always at least one piece, and a separator at either end yields an
      empty piece there. */
  function Split(s: string, sep: char): (pieces: seq<string>)
    ensures |pieces| >= 1
    ensures forall k :: 0 <= k < |pieces| ==> sep !in pieces[k]
    ensures Join(pieces, sep) == s
  {
    if |s| == 0 then [""]
    else
      var rest := Split(s[1..], sep);
      if s[0] == sep then
        assert s == [sep] + s[1..];
        [""] + rest
      else
        var pieces := [[s[0]] + rest[0]] + rest[1..];
        assert pieces[1..] == rest[1..];
        assert s == [s[0]] + s[1..];
        pieces
  }

  /** The pieces glued back together with `sep` between neighbours. */
  function Join(pieces: seq<string>, sep: char): string
    requires |pieces| >= 1
  {
    if |pieces| == 1 then pieces[0]
    else pieces[0] + [sep] + Join(pieces[1..], sep)
  }

  /** Text without a separator is one piece. */
  lemma {:induction false} SplitSingle(s: string, sep: char)
    requires sep !in s
    ensures Split(s, sep) == [s]
    decreases |s|
  {
    if |s| > 0 {
      assert sep !in s[1..] by {
        forall k | 0 <= k < |s[1..]| ensures s[1..][k] != sep {
          assert s[1..][k] == s[k + 1];
        }
      }
      SplitSingle(s[1..], sep);
      assert s == [s[0]] + s[1..];
    }
  }

  /** A separator-free prefix followed by a separator becomes the first
      piece. */
  lemma {:induction false} SplitAfterPiece(p: string, sep: char, rest: string)
    requires sep !in p
    ensures Split(p + [sep] + rest, sep) == [p] + Split(rest, sep)
    decreases |p|
  {
    var s := p + [sep] + rest;
    if |p| == 0 {
      assert s[1..] == rest;
    } else {
      assert sep !in p[1..] by {
        forall k | 0 <= k < |p[1..]| ensures p[1..][k] != sep {
          assert p[1..][k] == p[k + 1];
        }
      }
      assert s[1..] == p[1..] + [sep] + rest;
      SplitAfterPiece(p[1..], sep, rest);
      assert [p[0]] + p[1..] == p;
    }
  }

  /** Splitting undoes joining when no piece holds the separator. */
  lemma {:induction false} SplitJoin(pieces: seq<string>, sep: char)
    requires |pieces| >= 1
    requires forall k :: 0 <= k < |pieces| ==> sep !in pieces[k]
    ensures Split(Join(pieces, sep), sep) == pieces
    decreases |pieces|
  {
    if |pieces| == 1 {
      SplitSingle(pieces[0], sep);
    } else {
      SplitJoin(pieces[1..], sep);
      SplitAfterPiece(pieces[0], sep, Join(pieces[1..], sep));
    }
  }

  /** `n` spaces. */
  function Spaces(n: nat): (r: string)
    ensures |r| == n && forall k :: 0 <= k < n ==> r[k] == ' '
  {
    seq(n, _ => ' ')
  }
}
